=== FILE: README.md ===
# tech-crm-frontend, modelled in Dafny

A model of the business rules inside a small subscription CRM front end. The
front end is a Next.js application over a Supabase `customers` table, and it
also lists WhatsApp conversations. The modelled rules are these:

- how the two add-customer dialogs and the two renew dialogs compute a
  subscription's end date from a start date, a duration and a subscription
  type (`شهري` monthly, `ربع سنوي` quarterly, `سنوي` yearly);
- how the newer add dialog validates its form and keeps its per-field
  errors, and what each dialog writes to the table;
- how the `GET /api/chats` route sanitises `page` and `limit` before it
  calls the backend;
- the dashboard: days remaining per customer, search, the all / active /
  expired tabs and the summary counts, plus the status badge and its label
  on each customer card;
- the chat list: display name, route, avatar initials and colour hash,
  message preview, time-stamp bucket, search with its fallback, and paging;
- the delete dialog's confirmation gate and the WhatsApp preview on a
  customer card.

Every operation is a pure function over immutable datatypes. The clock
("today", "now") and the outcome of each database call are parameters.
Database writes are values of `Records.Write`: `Insert(row)`,
`Update(id, columns)` or `Delete(id)`.

The shared modules model the JavaScript and date-library behaviour that the
rules rely on:

- `Options`: the Option type.
- `Text`: trimming, ASCII case mapping, `includes`, `split`/`join`,
  `parseInt` and `toString`.
- `Calendar`: a proleptic Gregorian date with `addMonths` (day clamped to
  the month length), `differenceInDays` (full days, truncated),
  `isToday`/`isYesterday`, and `parseISO`/`format` for `yyyy-MM-dd`.
- `Seqs`: `filter`.
- `Records`: row payloads.
- `Customers`: the customer row.
- `Subscription`: the type constants and the clamped end-date rule the two
  add dialogs share.
- `BrowserChecks`: the constraint validation the browser applies before a
  form may submit. It covers `required`, `min` on a number input and the
  `type="email"` address format of the HTML standard. A form that fails
  one of them fires no submit event. A disabled submit button fires none
  either, for a click or for the Enter key. Each dialog's `SubmitEvent`
  therefore takes the `isSubmitting` flag as an input and returns `None`
  when the button is disabled or the browser blocks the submit.

Each core source file has one module: `AddCustomer`, `LegacyAddCustomer`,
`LegacyRenew`, `RenewPlan`, `ChatsRoute`, `Dashboard`, `CustomerList`,
`ChatList`, `DeleteCustomer` and `WhatsAppPreview`. A further module,
`EndDateVersions`, compares the three end-date computations.

JavaScript specifics are written out:

- `NaN` from `parseInt` or from an invalid date is `None`, and every
  comparison with it is false.
- `<<` wraps to 32 bits through ECMAScript ToInt32, while the `-` and `+`
  around it do not.
- `` `${undefined}` `` prints `undefined`.
- `format` on an invalid date throws; the model shows that as `None`.

One consequence of the date library is stated rather than corrected.
`differenceInDays` counts only full days. So during the day before its end
date, a subscription already counts as expired on the dashboard.

## Model

| member | source | states |
|---|---|---|
| Text.TrimStart | components/modals/AddCustomerModal.jsx:102 | `trimStart` drops exactly the leading whitespace: the result is a suffix, everything dropped is whitespace, and the result does not start with whitespace |
| Text.TrimEnd | components/modals/AddCustomerModal.jsx:106 | `trimEnd` drops exactly the trailing whitespace |
| BrowserChecks.ValidEmailShape | components/AddCustomerModal.jsx:209-211 | an address the browser accepts holds an `@` after a non-empty local part, does not start with `@` or a space, and does not end with `.` or `@` |
| Text.Trim | components/modals/AddCustomerModal.jsx:102 | `trim` keeps the part of the text between its leading and trailing whitespace: everything outside it is whitespace, and the kept part neither starts nor ends with whitespace |
| Text.TrimEmptyIff | components/modals/AddCustomerModal.jsx:102-107 | `!s.trim()` holds exactly when every character of `s` is whitespace |
| Text.ToLower | app/dashboard/page.jsx:98-101 | lower-casing keeps the length and maps each character through the ASCII case map |
| Text.ToUpper | app/chats/page.jsx:86-90 | upper-casing keeps the length and maps each character through the ASCII case map |
| Text.ToLowerForgetsCase | app/dashboard/page.jsx:98-101 | lower-casing after upper-casing, or twice, is the same as lower-casing once |
| Text.ContainsIff | app/dashboard/page.jsx:98-101 | `includes` (the predicate `Text.Contains`) holds exactly when the substring occurs at some index |
| Text.ContainsEmpty | app/dashboard/page.jsx:98-101 | every string includes the empty search term |
| Text.ContainsIgnoringCaseIsCaseBlind | app/chats/page.jsx:127-129 | the case-insensitive match does not change when either side is upper- or lower-cased first |
| Text.BeforeFirst | app/chats/page.jsx:41 | `split(c)[0]` is a prefix of the text without `c`, and it is followed by `c` when it is shorter than the text |
| Text.Split | app/chats/page.jsx:84 | `split(c)` has at least one piece, and the first is the text before the first `c`; there is more than one piece exactly when `c` occurs; no piece holds `c`, and every piece's characters come from the text |
| Text.JoinSplit | app/chats/page.jsx:84 | joining the pieces of `split(c)` with `c` gives the text back |
| Text.SplitAppend | app/chats/page.jsx:84 | splitting two texts joined by the separator gives the pieces of the first and then those of the second, so the pieces come in text order |
| Text.StripLeadingZeros | components/modals/AddCustomerModal.jsx:108 | `replace(/^0+/, '')` removes the run of leading zeros and nothing else |
| Text.NatToString | app/api/chats/route.js:17-18 | `toString` of a natural number is a non-empty run of digits denoting that number |
| Text.IntToString | app/api/chats/route.js:17-18 | `toString` of an integer is its decimal digits, after a `-` for a negative number |
| Text.ParseInt | app/api/chats/route.js:6-7 | `parseInt` is `NaN` exactly when no digit follows the leading whitespace and the optional sign |
| Text.ParseIntOfDigits | app/api/chats/route.js:6-7 | a non-empty run of digits parses to the number it denotes |
| Text.ParseIntOfLeadingDigits | components/RenewSubscriptionModal.jsx:45-47 | text that starts with a digit parses to the value of its leading digits, whatever follows them |
| Text.ParseIntOfIntToString | app/api/chats/route.js:17-18 | parsing the printed form of any integer returns that integer |
| Calendar.DaysInMonth | components/modals/AddCustomerModal.jsx:73 | months have 28 to 31 days, and February has 29 exactly in leap years |
| Calendar.AddMonths | components/modals/AddCustomerModal.jsx:73 | `addMonths(d, n)` gives a valid date `n` months away, with the same day or the last day of a shorter month |
| Calendar.AddMonthsZero | components/AddCustomerModal.jsx:72-76 | adding zero months returns the date unchanged |
| Calendar.AddMonthsDirection | components/RenewSubscriptionModal.jsx:54 | a positive month count moves strictly forward and a negative one strictly backward |
| Calendar.TruncDiv | app/dashboard/page.jsx:55 | the day count is the quotient rounded toward zero for either sign of the difference |
| Calendar.DifferenceInDays | app/dashboard/page.jsx:55 | `differenceInDays` counts the full days between two instants, rounded toward zero: it is the number of whole days in the gap, negative for a later second instant |
| Calendar.DifferenceFromMidnight | app/dashboard/page.jsx:53-55 | from an end date's midnight to `now`, `differenceInDays` is the calendar-day difference `k`, less one when `k > 0` and the clock is past midnight |
| Calendar.TodayAndYesterdayByMidnights | components/customers/WhatsAppPreview.jsx:11-13 | `isToday` and `isYesterday` (the predicates `Calendar.IsToday` and `Calendar.IsYesterday`) compare calendar days: today is zero full days between the two midnights, yesterday one day back, and no instant is both |
| Calendar.FormatYear | components/modals/AddCustomerModal.jsx:27 | the `yyyy` field is the digits of the year, or of the era year `1 - y` for a year up to 0, and four characters for era years below 10000 |
| Calendar.FormatIso | components/modals/AddCustomerModal.jsx:74 | `format(d, 'yyyy-MM-dd')` ends in `-MM-dd`, whose digits denote the month and the day, after the digits of the year |
| Calendar.FormatDayMonthYear | components/customers/CustomerList.jsx:54-55 | `format(d, 'dd/MM/yyyy')` starts `dd/MM/`, whose digits denote the day and the month, followed by the digits of the year |
| Calendar.FormatClock | components/customers/WhatsAppPreview.jsx:12 | `HH:mm` is five characters with `:` in the middle |
| Calendar.ParseIso | components/modals/AddCustomerModal.jsx:49-50 | `parseISO` yields only valid dates with four-digit years, and the empty text is invalid |
| Calendar.ParseFormatIso | components/modals/AddCustomerModal.jsx:26-35 | a date of the years 1 to 9999 formatted as `yyyy-MM-dd` parses back to the same date |
| Calendar.FormatParseIso | components/modals/RenewSubscriptionModal.jsx:30 | re-formatting a stored `yyyy-MM-dd` date that parses gives the same text exactly when its year is not 0000; year 0000 comes back as 0001 |
| Subscription.Multiplier | components/modals/AddCustomerModal.jsx:62-70 | 12 months per unit exactly for yearly, 3 exactly for quarterly, and 1 for any other type |
| Subscription.ClampedMonths | components/modals/AddCustomerModal.jsx:56-70 | zero months exactly when the duration is not positive; otherwise the duration times the multiplier |
| Subscription.ClampedEndDate | components/modals/AddCustomerModal.jsx:45-81 | the end date is empty exactly when the start date does not parse; otherwise it is the start moved by the clamped months, never before the start, and equal to it exactly when the duration is not positive, in which case the start text is kept as typed |
| ChatsRoute.ParamOr | app/api/chats/route.js:6-7 | a missing or empty parameter falls back to the default; a non-empty one is kept |
| ChatsRoute.ValidatePage | app/api/chats/route.js:10 | the page is never negative; `NaN` and negative pages become 0, and other pages pass unchanged |
| ChatsRoute.ValidateLimit | app/api/chats/route.js:11 | the limit lies in 1..100; `NaN` becomes 20, and out-of-range values are clamped to the nearer bound |
| ChatsRoute.ValidatedPaging | app/api/chats/route.js:6-11 | whatever the query, the forwarded page is at least 0 and the limit lies in 1..100 |
| ChatsRoute.ValidationIdempotent | app/api/chats/route.js:10-11 | validating an already-validated page or limit changes nothing |
| ChatsRoute.ParseTen | app/api/chats/route.js:6 | the default page text parses to 10 |
| ChatsRoute.ParseFifty | app/api/chats/route.js:7 | the default limit text parses to 50 |
| ChatsRoute.DefaultsAndFallbacks | app/api/chats/route.js:6-11 | a missing page means 10, not 0, and a missing limit means 50; non-numeric text means page 0 and limit 20 |
| ChatsRoute.BackendRequestFor | app/api/chats/route.js:15-18 | for a base URL without a query of its own, the request goes to path `/chats/` with exactly the query keys `page` then `limit` |
| ChatsRoute.BackendCarriesValidatedPaging | app/api/chats/route.js:15-18 | reading the backend query back gives exactly the validated page and limit; without a configured URL the default backend is used |
| ChatsRoute.Respond | app/api/chats/route.js:27-41 | status 200 with the backend's body exactly when the backend answered; otherwise 500 with the fixed error body |
| AddCustomer.EndDate | components/modals/AddCustomerModal.jsx:45-81 | empty exactly for an unusable start date; the start itself for a non-positive duration; otherwise the start plus duration times the multiplier in months |
| AddCustomer.Open | components/modals/AddCustomerModal.jsx:26-38 | the dialog opens with no errors, a monthly subscription of one month starting today, and the end date one month later |
| AddCustomer.CoerceDuration | components/modals/AddCustomerModal.jsx:87 | the duration is the parsed number, or 0 when the text is not a number |
| AddCustomer.SetField | components/modals/AddCustomerModal.jsx:85-88 | after an edit the edited field holds the typed value, with the duration coerced, and every other field keeps its value |
| AddCustomer.HandleChange | components/modals/AddCustomerModal.jsx:83-97 | an edit changes only its field; the end date is recomputed; the field's error is blanked if it had one; no other error changes and no error key appears or disappears |
| AddCustomer.EmailMatchesIff | components/modals/AddCustomerModal.jsx:112 | the single-pass e-mail scan accepts exactly the texts `/^[^\s@]+@[^\s@]+\.[^\s@]+$/` matches |
| AddCustomer.EmailMatchesSound | components/modals/AddCustomerModal.jsx:112 | an accepted text splits at its first `@` and a dot in the domain the way the pattern requires |
| AddCustomer.EmailMatchesComplete | components/modals/AddCustomerModal.jsx:112 | any split the pattern admits makes the scan accept |
| AddCustomer.Check | components/modals/AddCustomerModal.jsx:99-118 | the name and phone rules fail exactly for whitespace-only text; the phone is malformed exactly when it is not 12 digits after its leading zeros; the e-mail fails exactly when it is non-empty and off-pattern; the duration rule fails exactly for an empty end date. The whitespace test is `AddCustomer.Blank` and the digit rule `AddCustomer.PhoneDigitsValid` |
| AddCustomer.ErrorsFor | components/modals/AddCustomerModal.jsx:100-118 | an error is recorded under exactly the fields whose rule failed, with the source's message; a blank phone is reported as missing, not malformed |
| AddCustomer.ValidateForm | components/modals/AddCustomerModal.jsx:99-122 | errors appear only under name, phone, e-mail and duration: under the name exactly when it is blank, under the phone exactly when it is blank or not 12 digits, under the e-mail exactly when it is non-empty and off-pattern, under the duration exactly when there is no end date |
| AddCustomer.ValidateFormAccepts | components/modals/AddCustomerModal.jsx:99-122 | validation passes exactly when the name is not blank, the phone is 12 digits, the e-mail is empty or well-formed, and an end date exists |
| AddCustomer.Row | components/modals/AddCustomerModal.jsx:134-138 | the inserted row is every form field under its input name, plus `end_date` and `created_at` |
| AddCustomer.Submit | components/modals/AddCustomerModal.jsx:124-158 | once the browser lets the submit through, an insert is sent exactly when validation passes, and it carries the row; the dialog closes exactly when that insert succeeds; a rejected submit keeps the validation errors; a failed insert shows only the form-level message |
| AddCustomer.FailureMessage | components/modals/AddCustomerModal.jsx:152-154 | the shown message is the error's own when it has one, and never empty |
| AddCustomer.SubmitWithoutEndDate | components/modals/AddCustomerModal.jsx:116-129 | if `handleSubmit` runs without an end date, nothing is written, the dialog stays open, and the duration error is recorded; the dialog itself never runs it so (see `AddCustomer.NoSubmitWithoutEndDate`) |
| AddCustomer.SubmitEvent | components/modals/AddCustomerModal.jsx:214-403 | the handler runs exactly when no request is in flight, an end date exists (`disabled={isSubmitting \|\| !endDate}`), the duration is at least 1 (`min="1"`) and the e-mail is empty or a valid address (`type="email"`); otherwise nothing happens. The gate is `AddCustomer.SubmitEnabled` and `AddCustomer.BrowserAccepts`, the address rule `BrowserChecks.EmailAccepts` over `BrowserChecks.ValidEmail` |
| AddCustomer.NoSubmitWithoutEndDate | components/modals/AddCustomerModal.jsx:403 | without an end date the disabled button lets no submit through |
| AddCustomer.InsertedEndDateIsAfterStart | components/modals/AddCustomerModal.jsx:124-158 | every insert that goes out has a duration of at least one and a start date that parses, and carries an end date strictly after that start |
| AddCustomer.EmailChecksDisagree | components/modals/AddCustomerModal.jsx:112 | the browser's address check and the dialog's pattern disagree both ways: `a(b@c.d` passes the pattern only, `a@b` the browser only |
| AddCustomer.EditsKeepEndDate | components/modals/AddCustomerModal.jsx:45-81 | after any edit the stored end date is the one the form implies, empty exactly when the start date does not parse |
| LegacyAddCustomer.EndDate | components/AddCustomerModal.jsx:44-83 | empty exactly for an unusable start date; the start itself for a non-positive duration; otherwise the start plus duration times the multiplier in months |
| LegacyAddCustomer.Open | components/AddCustomerModal.jsx:26-37 | the dialog opens with no error, one month of monthly subscription from today, and the end date one month later |
| LegacyAddCustomer.HandleChange | components/AddCustomerModal.jsx:87-94 | an edit sets exactly its field, with non-numeric duration text stored as 0; the end date is recomputed and the error is kept |
| LegacyAddCustomer.Row | components/AddCustomerModal.jsx:114-119 | the row carries each form field under its column (name, e-mail, phone, service, type and start date as typed, the duration as a number) plus the computed end date, and has no other keys |
| LegacyAddCustomer.EditReachesRow | components/AddCustomerModal.jsx:87-119 | after an edit, the inserted row holds the typed text under that field's column, the duration as `handleChange` read it, and the end date the edited form implies |
| LegacyAddCustomer.Submit | components/AddCustomerModal.jsx:98-145 | once the browser lets the submit through, an empty end date (which the disabled button keeps from happening) gives the end-date error and no insert; otherwise the row is inserted; the dialog closes exactly on success; any error shown is non-empty and is the server's message when it has one |
| LegacyAddCustomer.SubmitEvent | components/AddCustomerModal.jsx:175-341 | the handler runs exactly when no request is in flight, an end date exists (`disabled={isSubmitting \|\| !endDate}`), every input is non-empty, the e-mail is a valid address and the duration is at least 1, and then it inserts the row; otherwise nothing happens. The gate is `LegacyAddCustomer.SubmitEnabled` and `LegacyAddCustomer.BrowserAccepts`, with `BrowserChecks.Filled` and `BrowserChecks.ValidEmail` |
| LegacyAddCustomer.InsertsBlankCustomer | components/AddCustomerModal.jsx:98-304 | `required` rejects only empty values and the handler checks only the end date, so a customer whose name, phone and service are a single space is inserted, with those spaces in the row |
| LegacyRenew.DurationCount | components/RenewSubscriptionModal.jsx:45 | a number counts as itself, and text counts as its parsed value or 0 |
| LegacyRenew.Recalculate | components/RenewSubscriptionModal.jsx:41-56 | an empty or unusable start date keeps the old end date; otherwise the start moved by duration times multiplier, without clamping |
| LegacyRenew.Open | components/RenewSubscriptionModal.jsx:13-29 | the dialog inherits the customer's type, starts today with duration 1, and shows the end date one unit of that type later |
| LegacyRenew.HandleChange | components/RenewSubscriptionModal.jsx:31-39 | an edit of the type, the start date or the duration stores the typed value and recomputes the end date from the new form; an unusable start date leaves the end date unchanged; the error is kept |
| LegacyRenew.NegativeDurationGoesBack | components/RenewSubscriptionModal.jsx:45-55 | a negative duration puts the end date strictly before the start date |
| LegacyRenew.EarlierByNegativeMonths | components/RenewSubscriptionModal.jsx:54 | a negative count of units of at least one month moves strictly backward |
| LegacyRenew.NonNumericDurationEndsAtStart | components/RenewSubscriptionModal.jsx:45-55 | non-numeric duration text makes the end date the start date as `format` writes it, which is the start text itself unless its year is 0000 |
| LegacyRenew.Submit | components/RenewSubscriptionModal.jsx:58-84 | once the browser lets the submit through, the update targets the customer's id and writes exactly the type, start date, raw duration and shown end date; the dialog closes exactly on success and shows an error exactly on failure |
| LegacyRenew.SubmitEvent | components/RenewSubscriptionModal.jsx:127-204 | the handler runs exactly when no request is in flight (`disabled={isSubmitting}`), the type and start date are non-empty and the duration is a whole number of at least 1; so every renewal sent has a start date and a duration of at least one unit. The gate is `LegacyRenew.BrowserAccepts`, with the duration rule `LegacyRenew.DurationAtLeastOne` over `BrowserChecks.WholeNumberAtLeastOne` |
| LegacyRenew.AcceptedDurationCounts | components/RenewSubscriptionModal.jsx:167-176 | a duration the browser accepts is read by `parseInt` as at least one unit |
| LegacyRenew.StepBlocksFractions | components/RenewSubscriptionModal.jsx:167-176 | the default step of 1 accepts `2.0` as two units and blocks `1.5`, which `parseInt` would read as one |
| LegacyRenew.SubmittedRenewalsMoveForward | components/RenewSubscriptionModal.jsx:31-84 | after a duration edit over a usable start date, a renewal the browser lets through writes an end date strictly after the start |
| RenewPlan.PlanTextMonths | components/modals/RenewSubscriptionModal.jsx:101-106 | each plan value parses to its number of months: 1, 3, 6 or 12 |
| RenewPlan.Initial | components/modals/RenewSubscriptionModal.jsx:13-14 | the dialog opens on the one-month plan, extending from the current end date |
| RenewPlan.SelectPlan | components/modals/RenewSubscriptionModal.jsx:110 | choosing a plan stores its value and keeps the base choice |
| RenewPlan.ChooseCurrentEnd | components/modals/RenewSubscriptionModal.jsx:136 | the first radio button selects the current end date and keeps the plan |
| RenewPlan.ChooseToday | components/modals/RenewSubscriptionModal.jsx:147 | the second radio button selects today and keeps the plan |
| RenewPlan.ControlsKeepReachable | components/modals/RenewSubscriptionModal.jsx:13-14 | starting from the initial selection, every control keeps the plan among the four values and the base among the two choices |
| RenewPlan.BaseDate | components/modals/RenewSubscriptionModal.jsx:19-21 | the base is the parsed current end date for `current_end` and today otherwise |
| RenewPlan.NewEndDate | components/modals/RenewSubscriptionModal.jsx:17-24 | a new end date exists exactly when the base date is valid and the plan parses |
| RenewPlan.Render | components/modals/RenewSubscriptionModal.jsx:17-30 | the dialog renders exactly when a new end date exists and the stored end date parses, and then shows the new end date and the stored one re-formatted |
| RenewPlan.RenderMeaning | components/modals/RenewSubscriptionModal.jsx:17-30 | for a reachable selection the dialog renders exactly when the stored end date parses; it then shows that date as stored (unless its year is 0000) and a new end date strictly after the base |
| RenewPlan.RenewWrite | components/modals/RenewSubscriptionModal.jsx:36-42 | the update writes only `end_date` and `updated_at`, for the customer's id |
| RenewPlan.RenewFromCurrentEndTwice | components/modals/RenewSubscriptionModal.jsx:17-24 | renewing twice by one plan from the current end moves the month index by twice the plan's months, when the first new end date lies in the years 1 to 9999 |
| RenewPlan.RenewFromCurrentEnd | components/modals/RenewSubscriptionModal.jsx:17-24 | one renewal from a parsable current end date adds the plan's months to it |
| EndDateVersions.AgreeOnPositiveDurations | components/RenewSubscriptionModal.jsx:41-56 | for a positive duration and a usable start date, the add dialogs and the older renew dialog compute the same end date |
| EndDateVersions.DisagreeOnNegativeDurations | components/RenewSubscriptionModal.jsx:45-55 | for a negative duration the add dialogs give the start date, and the older renew dialog gives a strictly earlier date |
| EndDateVersions.PlanFromTodayIsMonthly | components/modals/RenewSubscriptionModal.jsx:17-24 | a plan from today ends where an add dialog's monthly subscription of that many months from today ends |
| Dashboard.RemainingDays | app/dashboard/page.jsx:53-55 | the days left are a number exactly when the end date parses |
| Dashboard.RemainingDaysMeaning | app/dashboard/page.jsx:53-55 | a customer is active exactly when the end date is two or more calendar days away, or tomorrow with the clock at midnight; on or after the end date the count is the calendar-day difference |
| Dashboard.Load | app/dashboard/page.jsx:52-63 | no data gives an empty list; otherwise each customer, in order, unchanged and paired with its days left |
| Dashboard.SearchCaseRules | app/dashboard/page.jsx:97-101 | the search (the predicate `Dashboard.Matches`) ignores case in name, e-mail and service but not in the phone |
| Dashboard.EmptySearch | app/dashboard/page.jsx:97-101 | an empty search keeps exactly the customers with at least one searched field present |
| Dashboard.Visible | app/dashboard/page.jsx:95-109 | the shown customers are exactly those of the list that pass the search and the tab test, and never more |
| Dashboard.VisibleKeepsOrder | app/dashboard/page.jsx:95-109 | the shown list keeps the loaded order: filtering a joined list filters each part, and one entry is shown exactly when the tab keeps it |
| Dashboard.TabsSplitTheSearch | app/dashboard/page.jsx:103-106 | each tab is the `all` result narrowed by its condition; when every end date parses, active and expired together are the `all` result |
| Dashboard.UnknownTabIsAll | app/dashboard/page.jsx:104-108 | any tab other than the three shows the same as `all` |
| Dashboard.Summarize | app/dashboard/page.jsx:213-217 | the total is the list length, active plus expired never exceeds it, and equals it when every end date parses; no entry is active exactly when the active count is 0, and likewise for expired |
| Dashboard.SummarizeCounts | app/dashboard/page.jsx:213-217 | the counts start at zero, and each further entry adds one to the total and one to the active count when its days left are positive, or to the expired count when they are not, or to neither for `NaN` |
| Dashboard.DatedSplits | app/dashboard/page.jsx:215-216 | the active and expired counts add up to the number of customers whose end date parses |
| Seqs.Filter | app/dashboard/page.jsx:95-109 | `filter` keeps exactly the elements that pass, and never more than the input |
| Seqs.FilterEmptyIff | app/dashboard/page.jsx:215-216 | a filter is empty exactly when no element passes |
| Seqs.FilterAppend | app/dashboard/page.jsx:95-109 | filtering a joined list is joining the filtered parts, so the kept elements stay in order |
| Seqs.FilterPartition | app/dashboard/page.jsx:215-216 | two complementary filters split a list, both as a multiset and in length |
| CustomerList.BadgeFor | components/customers/CustomerList.jsx:8-12 | red exactly for zero or fewer days, yellow exactly for 1 to 7, green beyond 7 or for `NaN` |
| CustomerList.LabelFor | components/customers/CustomerList.jsx:64-66 | `منتهي` exactly when no positive day count is known; otherwise the count followed by ` يوم متبقي` |
| CustomerList.CardFor | components/customers/CustomerList.jsx:24-66 | a card renders exactly when the name is present and both dates parse, with the badge and label of its days left and the end date as `dd/MM/yyyy` |
| CustomerList.CardBadgeAgreesWithLabel | components/customers/CustomerList.jsx:8-12 | on every card that renders, red coincides with `منتهي`, yellow with 1 to 7 days and green with more |
| ChatList.PhoneOf | app/chats/page.jsx:41 | the phone part is a prefix of the jid and holds no `@` |
| ChatList.ChatRoute | app/chats/page.jsx:40-43 | the route is `/chat/` followed by the jid up to its first `@` |
| ChatList.ChatRouteOfPhone | app/chats/page.jsx:40-43 | a chat with jid `<phone>@<server>` opens `/chat/<phone>` |
| ChatList.DisplayName | app/chats/page.jsx:75-79 | the name when truthy, else the jid's phone part |
| ChatList.AvatarTextAsWritten | app/chats/page.jsx:82-91 | a truthy name without a space gives its first character upper-cased; one with a space whose first two pieces are non-empty gives their first characters; without a truthy name the jid's first character; for an empty jid the render throws (`None`) |
| ChatList.LeadingSpaceAvatar | app/chats/page.jsx:84-86 | the name ` Ali` gets the avatar text `UNDEFINEDA` |
| ChatList.Words | app/chats/page.jsx:84 | the words are exactly the non-empty pieces of `split(' ')`; they hold no space and use only characters of the name |
| ChatList.WordsOfJoin | app/chats/page.jsx:84 | the words of two texts joined by a space are the words of the first followed by those of the second |
| ChatList.WordsOfWord | app/chats/page.jsx:84 | a text without a space is one word, or none when empty |
| ChatList.AvatarText | app/chats/page.jsx:82-91 | a name with words gives the upper-cased first character of the first word, followed by that of the second word exactly when there are two or more; otherwise the jid's first character upper-cased; for an empty jid the render throws (`None`) |
| ChatList.InitialsOfTwoWords | app/chats/page.jsx:82-91 | the name `first second` gives the two upper-cased initials |
| ChatList.LeadingSpaceAvatarCorrected | app/chats/page.jsx:82-91 | a name that is a space and then one word, such as ` Ali`, gets that word's initial upper-cased |
| ChatList.AvatarTextAgreesOnWellSpacedNames | app/chats/page.jsx:82-91 | with no empty piece between spaces, the code as written gives the intended initials |
| ChatList.ToInt32 | app/chats/page.jsx:108 | the result is in the signed 32-bit range and congruent to the input modulo 2^32 |
| ChatList.ToInt32OfInt32 | app/chats/page.jsx:108 | a value already in the 32-bit range is unchanged |
| ChatList.Hash | app/chats/page.jsx:106-109 | each character moves the hash by less than 2^31 plus its code, so the hash stays within the exact range of a double for texts shorter than 2^21 characters |
| ChatList.HashIsPolynomial | app/chats/page.jsx:106-109 | while the prefix hashes stay below 2^26, the loop computes the base-31 polynomial hash |
| ChatList.ColorIndex | app/chats/page.jsx:111 | the colour index is always one of the eight |
| ChatList.AvatarColor | app/chats/page.jsx:94-112 | the loop's running value equals the character-by-character hash, so the colour is the one at `abs(hash) % 8` |
| ChatList.MessagePreview | app/chats/page.jsx:115-122 | `No messages yet` without a truthy last message; otherwise the message after the prefix `You: `, else `sender: `, else none |
| ChatList.StampFor | app/chats/page.jsx:52-72 | no stamp exactly without a time; a time of day only for the current date; a weekday or month and day only for another date, which it carries |
| ChatList.StampMeaning | app/chats/page.jsx:52-72 | time of day exactly for today; weekday for fewer than seven full days back or a later date; month and day otherwise, stated in calendar days and clock times |
| ChatList.FilteredChats | app/chats/page.jsx:125-131 | an empty query keeps the list; otherwise exactly the chats whose name, jid or message contains it, ignoring case |
| ChatList.DisplayChats | app/chats/page.jsx:135 | a search with hits shows exactly the hits, which are the listed chats that match; a search with no hits shows the whole list; the shown list is empty only when there are no chats |
| ChatList.PagerFollowsDisplay | app/chats/page.jsx:230 | the pager (the predicate `ChatList.PagerShown`) never shows for fewer than 50 fetched chats, shows for a full page without a search or when the search finds nothing, and hides when the search keeps fewer than 50 |
| ChatList.PreviousPage | app/chats/page.jsx:233 | the page before, never below 0 |
| ChatList.NextPage | app/chats/page.jsx:243 | the page after |
| ChatList.PagingRoundTrip | app/chats/page.jsx:233-243 | next then previous returns to the page; previous then next does too off the first page; previous is disabled exactly where it would not move |
| ChatList.PageQuery | app/chats/page.jsx:25 | the request carries both a page and a limit |
| ChatList.PageQueryPassesValidation | app/chats/page.jsx:18-25 | the route's validation passes the page's own request unchanged: the shown page and 50 |
| DeleteCustomer.Open | components/modals/DeleteCustomerModal.jsx:12-13 | the dialog opens with an empty confirmation and the button disabled |
| DeleteCustomer.Type | components/modals/DeleteCustomerModal.jsx:86 | typing replaces the confirmation text and nothing else |
| DeleteCustomer.Click | components/modals/DeleteCustomerModal.jsx:15-36 | a click deletes the customer's row by id exactly when the button is enabled, and then marks the dialog submitting |
| DeleteCustomer.Finish | components/modals/DeleteCustomerModal.jsx:24-33 | the dialog closes exactly on success, always stops submitting, and keeps the typed text |
| DeleteCustomer.DeleteNeedsConfirmation | components/modals/DeleteCustomerModal.jsx:36 | only the exact word enables a delete; a second click during a delete sends nothing; after a failure the button works again |
| WhatsAppPreview.MessageTime | components/customers/WhatsAppPreview.jsx:6-18 | a missing stamp gives empty text and an invalid one throws; today gives a clock time, yesterday gives `الأمس`, and older stamps give the date |
| WhatsAppPreview.ClockReadsBack | components/customers/WhatsAppPreview.jsx:12 | the clock text's hour and minute are those of the stamp's time of day |
| WhatsAppPreview.StampKindsDiffer | components/customers/WhatsAppPreview.jsx:11-17 | a clock time is never `الأمس`, and a date reads `dd/MM/yyyy` |
| WhatsAppPreview.Render | components/customers/WhatsAppPreview.jsx:20-23 | hidden exactly for a falsy message or the `لا توجد رسائل سابقة` placeholder; otherwise the message with its time, or a failed render for an invalid stamp |

## Left out

- Supabase calls, `fetch`, `NextResponse` and the environment-variable
  setup are I/O. Each call's outcome is a parameter, and the model covers
  only the payloads and the way the outcome is handled.
- React state, effects and re-render timing are not modelled. Each
  dialog's `handleChange` is modelled together with the effect that
  follows it. The `isSubmitting` flag is an input of each dialog's
  `SubmitEvent`, where it disables the submit button, and a state of the
  delete dialog. When the flag is set and reset around a request is not
  modelled, and neither is the cancel button it also disables. The
  plan dialog's renew button (`handleRenew`, disabled while a request is
  in flight) is modelled by what one click writes, not by the flag.
- The hex `0x` prefix that `parseInt` without a radix accepts is not
  modelled. Only decimal text is.
- Case mapping covers only ASCII letters. JavaScript's full Unicode
  `toUpperCase`/`toLowerCase` is not modelled.
- `charCodeAt` counts UTF-16 code units. The model hashes Unicode scalar
  values, so characters outside the Basic Multilingual Plane differ.
- JavaScript numbers are doubles. The hash is modelled with exact
  integers. `ChatList.Hash` shows this is exact for texts shorter than
  2^21 characters.
- Text.NatToString: exact only for numbers below 2^53, and from 10^21 on
  JavaScript prints an exponent form (`1e+21`), which is not modelled.
- Text.ParseIntOfDigits: a run of digits denoting 2^53 or more parses to
  the nearest double in JavaScript, not to the exact number.
- Text.ParseIntOfIntToString: holds in JavaScript only for integers of
  magnitude below 2^53, for the two reasons above.
- ChatsRoute.BackendCarriesValidatedPaging: a page of 2^53 or more is
  rounded, and one of 10^21 or more is printed in exponent form, so the
  backend would not receive the exact validated page.
- Subscription.ClampedEndDate: a duration that moves the end date past
  the year 275760 makes `format` throw in JavaScript; the model still
  returns a date text. A duration of 10^21 or more is stored as a double
  that the effect's `parseInt(formData.duration, 10)` reads back from
  the text `1e+21` as 1, so JavaScript adds one unit where the model
  adds the whole duration.
- Time zones and daylight saving time are not modelled. Every date and
  instant is read in UTC.
- `new Date(text)` and `parseISO` are modelled only for `yyyy-MM-dd`
  text. Other accepted formats and timestamps with times are out of
  scope. An instant is taken as already read.
- The round trip between `format` and `parseISO` holds only for the
  years 1 to 9999. `yyyy` writes year 0 as 0001, and a year of five or
  more digits cannot be parsed back. The dialogs are modelled as opened
  on a day of those years.
- The browser's value sanitisation is not modelled. An e-mail input
  strips leading and trailing whitespace and line breaks from its value,
  and a number input turns text that is not a number into an empty value.
- A date input's value is always empty or a valid date in the browser.
  The model takes typed start dates as free text and lets `parseISO`
  reject the ones that are not dates.
- LegacyRenew.DurationAtLeastOne: typed duration text is judged as
  decimal text: a whole number of at least one, with an optional fraction
  of zeros. The browser also accepts exponent forms such as `1e1` (ten),
  which the model blocks.
- ChatsRoute.BackendRequestFor: a `BACKEND_API_URL` that carries its own
  query keeps it. `searchParams.set` then replaces an existing `page` or
  `limit` in place and appends the other key after it. The model takes
  the base URL to have no query.
- The locale text of `toLocaleTimeString`/`toLocaleDateString` and the
  Arabic `format` locale are not modelled. `ChatList.StampFor` returns
  which kind of stamp is shown, not its text.
- CustomerList.CardFor: the `عميل منذ` creation date on each card is not
  modelled, so a card whose `created_at` is not a date is modelled as
  rendering, although its `format` call throws.
- The percentage widths in the dashboard summary component are
  floating-point strings and are not modelled.
- When a fetch fails, the lists on the dashboard and chat pages keep their
  previous contents. That I/O path is not modelled.
- Authentication and all presentation components are not modelled.
- The per-conversation chat timeline is not part of this model.

## Findings

| source | as written | input that shows it | evidently intended | confidence | as-written member | corrected member |
|---|---|---|---|---|---|---|
| app/chats/page.jsx:82-91 | the avatar takes the first character of the first two pieces of `name.split(' ')`, and an empty piece prints `undefined` | chat name ` Ali` (leading space) gives `UNDEFINEDA` | the initials of the first two words | medium, not executed | ChatList.AvatarTextAsWritten, ChatList.LeadingSpaceAvatar | ChatList.AvatarText, ChatList.AvatarTextAgreesOnWellSpacedNames, ChatList.LeadingSpaceAvatarCorrected |

=== FILE: add_customer.dfy ===
/** The add-customer dialog (`components/modals/AddCustomerModal.jsx`): the
    form, the end date the dialog derives from it, the per-field error
    bookkeeping, the validation run on submit and the row it inserts. */
module AddCustomer {
  import opened Options
  import opened Text
  import opened Calendar
  import opened Records
  import opened Subscription
  import opened BrowserChecks

  const DefaultService: string := "تطبيق"

  const NameRequired: string := "اسم العميل مطلوب"
  const PhoneRequired: string := "رقم الهاتف مطلوب"
  const PhoneInvalid: string := "يجب أن يكون رقم الهاتف صحيح"
  const EmailInvalid: string := "البريد الإلكتروني غير صالح"
  const EndDateMissing: string := "لا يمكن حساب تاريخ الانتهاء. يرجى التحقق من تاريخ البدء والمدة."
  const InsertFailedFallback: string := "حدث خطأ غير متوقع أثناء إضافة العميل. الرجاء المحاولة مرة أخرى."

  /** The form's fields; `duration` always holds a number. */
  datatype Form = Form(
    name: string, email: string, phone: string, service: string,
    subscriptionType: string, startDate: string, duration: int, notes: string)

  /** The inputs of the dialog, each named as its `name` attribute. */
  datatype Field = Name | Email | Phone | Service | SubscriptionType | Duration | StartDate | Notes {
    function Key(): string {
      match this
      case Name => "name"
      case Email => "email"
      case Phone => "phone"
      case Service => "service"
      case SubscriptionType => "subscription_type"
      case Duration => "duration"
      case StartDate => "start_date"
      case Notes => "notes"
    }
  }

  /** The value of one field, as the row to insert holds it. */
  function Get(form: Form, f: Field): Value {
    match f
    case Name => Str(form.name)
    case Email => Str(form.email)
    case Phone => Str(form.phone)
    case Service => Str(form.service)
    case SubscriptionType => Str(form.subscriptionType)
    case Duration => Num(form.duration)
    case StartDate => Str(form.startDate)
    case Notes => Str(form.notes)
  }

  /** What an error message belongs to: an input, keyed by its name, or
      the form as a whole (the `form` key). */
  datatype ErrorKey = On(field: Field) | Whole

  type Errors = map<ErrorKey, string>

  datatype State = State(form: Form, endDate: string, errors: Errors)

  /** The end date the dialog's effect stores for a form: none when the start
      date does not parse, else the start moved by the positive duration in
      units of the type, or the start itself for any other duration. */
  function EndDate(form: Form): (end: string)
    ensures end == [] <==> ParseIso(form.startDate).None?
    ensures form.duration <= 0 && end != [] ==> end == form.startDate
    ensures form.duration > 0 && end != [] ==>
              end == FormatIso(AddMonths(ParseIso(form.startDate).value, form.duration * Multiplier(form.subscriptionType)))
  {
    ClampedEndDate(form.startDate, form.duration, form.subscriptionType)
  }

  /** The effect has run: the stored end date is the one the form implies. */
  predicate Settled(s: State) {
    s.endDate == EndDate(s.form)
  }

  /** The dialog as it opens on `today`: a monthly subscription of one
      month starting today, and the end date the effect computes on mount. */
  function Open(today: Date): (s: State)
    requires Valid(today) && 1 <= today.year < 10000
    ensures Settled(s) && s.errors == map[]
    ensures s.form.duration == 1 && s.form.subscriptionType == Monthly
    ensures ParseIso(s.form.startDate) == Some(today)
    ensures s.endDate == FormatIso(AddMonths(today, 1))
  {
    ParseFormatIso(today);
    State(Form([], [], [], DefaultService, Monthly, FormatIso(today), 1, []),
          ClampedEndDate(FormatIso(today), 1, Monthly), map[])
  }

  /** `parseInt(value, 10) || 0`: text that is not a number is stored as 0. */
  function CoerceDuration(value: string): (n: int)
    ensures ParseInt(value).None? ==> n == 0
    ensures ParseInt(value).Some? ==> n == ParseInt(value).value
  {
    match ParseInt(value)
    case Some(n) => n
    case None => 0
  }

  /** What field `f` holds after `value` is typed into it. */
  function Typed(f: Field, value: string): Value {
    if f == Duration then Num(CoerceDuration(value)) else Str(value)
  }

  /** `{ ...prev, [name]: value }`: typing into one field changes that
      field only. */
  function SetField(form: Form, f: Field, value: string): (r: Form)
    ensures Get(r, f) == Typed(f, value)
    ensures forall g: Field :: g != f ==> Get(r, g) == Get(form, g)
  {
    match f
    case Name => form.(name := value)
    case Email => form.(email := value)
    case Phone => form.(phone := value)
    case Service => form.(service := value)
    case SubscriptionType => form.(subscriptionType := value)
    case Duration => form.(duration := CoerceDuration(value))
    case StartDate => form.(startDate := value)
    case Notes => form.(notes := value)
  }

  /** `handleChange` for input `f` followed by the end-date effect: the
      field takes the new value, every other field keeps its own, and the
      field's error is blanked if it had one; no other error changes. */
  function HandleChange(s: State, f: Field, value: string): (r: State)
    ensures Settled(r)
    ensures Get(r.form, f) == Typed(f, value)
    ensures forall g: Field :: g != f ==> Get(r.form, g) == Get(s.form, g)
    ensures r.errors.Keys == s.errors.Keys
    ensures forall k :: k in s.errors && k != On(f) ==> r.errors[k] == s.errors[k]
    ensures On(f) in s.errors ==> r.errors[On(f)] == []
  {
    var form := SetField(s.form, f, value);
    var errors := if On(f) in s.errors && s.errors[On(f)] != [] then s.errors[On(f) := []] else s.errors;
    State(form, EndDate(form), errors)
  }

  /** A text made of whitespace only (or empty): what `!text.trim()` tests. */
  predicate Blank(text: string) {
    forall i :: 0 <= i < |text| ==> IsWhitespace(text[i])
  }

  /** `/^\d{12}$/.test(phone.replace(/^0+/, ''))`. */
  predicate PhoneDigitsValid(phone: string) {
    var rest := StripLeadingZeros(phone);
    |rest| == 12 && AllDigits(rest)
  }

  /** A character the class `[^\s@]` admits. */
  predicate EmailChar(c: char) {
    !IsWhitespace(c) && c != '@'
  }

  predicate AllEmailChars(s: string) {
    forall i :: 0 <= i < |s| ==> EmailChar(s[i])
  }

  /** The way `/^[^\s@]+@[^\s@]+\.[^\s@]+$/` matches `s`, with its `@` at
      `at` and the dot it uses at `dot`. */
  predicate EmailSplit(s: string, at: int, dot: int) {
    && 0 < at && at + 1 < dot && dot + 1 < |s|
    && s[at] == '@' && s[dot] == '.'
    && AllEmailChars(s[..at]) && AllEmailChars(s[at + 1..dot]) && AllEmailChars(s[dot + 1..])
  }

  /** The e-mail pattern, as the regular expression states it. */
  ghost predicate EmailPattern(s: string) {
    exists at, dot :: EmailSplit(s, at, dot)
  }

  /** The e-mail check as a scan: a non-empty local part up to the first
      `@`, then a domain without whitespace or `@` that has a dot with a
      character on each side. */
  predicate EmailMatches(s: string) {
    var local := BeforeFirst(s, '@');
    && local != [] && |local| < |s| && AllEmailChars(local)
    && var domain := s[|local| + 1..];
    && |domain| >= 3 && AllEmailChars(domain) && '.' in domain[1..|domain| - 1]
  }

  /** The scan accepts exactly the texts the regular expression matches. */
  lemma EmailMatchesIff(s: string)
    ensures EmailMatches(s) <==> EmailPattern(s)
  {
    if EmailMatches(s) {
      EmailMatchesSound(s);
    }
    if EmailPattern(s) {
      var at, dot :| EmailSplit(s, at, dot);
      EmailMatchesComplete(s, at, dot);
    }
  }

  /** A text the scan accepts has an `@` and a dot where the pattern wants
      them. */
  lemma EmailMatchesSound(s: string)
    requires EmailMatches(s)
    ensures EmailSplit(s, |BeforeFirst(s, '@')|, |BeforeFirst(s, '@')| + 2 + FirstDot(s))
  {
    var local := BeforeFirst(s, '@');
    var domain := s[|local| + 1..];
    var k := FirstDot(s);
    var at, dot := |local|, |local| + 2 + k;
    assert s[..at] == local;
    assert s[at + 1..dot] == domain[..k + 1];
    assert s[dot + 1..] == domain[k + 2..];
  }

  /** The position, inside the domain less its first and last character, of
      a dot the scan found. */
  function FirstDot(s: string): (k: nat)
    requires EmailMatches(s)
    ensures var domain := s[|BeforeFirst(s, '@')| + 1..];
            k < |domain| - 2 && domain[1..|domain| - 1][k] == '.'
  {
    var domain := s[|BeforeFirst(s, '@')| + 1..];
    IndexOf(domain[1..|domain| - 1], '.')
  }

  /** The first index of `c` in `s`. */
  function IndexOf(s: string, c: char): (i: nat)
    requires c in s
    ensures i < |s| && s[i] == c
    ensures forall j :: 0 <= j < i ==> s[j] != c
  {
    if s[0] == c then 0 else 1 + IndexOf(s[1..], c)
  }

  /** A text the pattern matches passes the scan: its `@` is the first one,
      since the local part has none. */
  lemma EmailMatchesComplete(s: string, at: int, dot: int)
    requires EmailSplit(s, at, dot)
    ensures EmailMatches(s)
  {
    forall i | 0 <= i < at ensures s[i] != '@' {
      assert s[..at][i] == s[i];
    }
    BeforeFirstAt(s, '@', at);
    var domain := s[at + 1..];
    assert domain == s[at + 1..dot] + "." + s[dot + 1..];
    assert domain[dot - at - 1] == '.';
    assert domain[1..|domain| - 1][dot - at - 2] == '.';
  }

  /** The outcome of each rule `validateForm` checks, in its order. */
  datatype Verdicts = Verdicts(nameBlank: bool, phoneBlank: bool, phoneMalformed: bool, emailMalformed: bool,
                               endDateMissing: bool)

  /** The rules, as the code tests them: a trimmed name or phone that is
      empty, a phone that is not twelve digits after its leading zeros, a
      non-empty e-mail the pattern rejects, and an empty end date. */
  function Check(form: Form, endDate: string): (v: Verdicts)
    ensures v.nameBlank <==> Blank(form.name)
    ensures v.phoneBlank <==> Blank(form.phone)
    ensures v.phoneMalformed <==> !PhoneDigitsValid(form.phone)
    ensures v.emailMalformed <==> form.email != [] && !EmailPattern(form.email)
    ensures v.endDateMissing <==> endDate == []
  {
    TrimEmptyIff(form.name);
    TrimEmptyIff(form.phone);
    EmailMatchesIff(form.email);
    Verdicts(Trim(form.name) == [], Trim(form.phone) == [], !PhoneDigitsValid(form.phone),
             form.email != [] && !EmailMatches(form.email), endDate == [])
  }

  /** The errors recorded for the verdicts: one message per failed rule,
      under the field it concerns; a blank phone is reported as missing
      rather than malformed. */
  function ErrorsFor(v: Verdicts): (errors: Errors)
    ensures errors.Keys <= {On(Name), On(Phone), On(Email), On(Duration)}
    ensures On(Name) in errors <==> v.nameBlank
    ensures On(Phone) in errors <==> v.phoneBlank || v.phoneMalformed
    ensures On(Email) in errors <==> v.emailMalformed
    ensures On(Duration) in errors <==> v.endDateMissing
    ensures On(Name) in errors ==> errors[On(Name)] == NameRequired
    ensures On(Phone) in errors ==> errors[On(Phone)] == if v.phoneBlank then PhoneRequired else PhoneInvalid
    ensures On(Email) in errors ==> errors[On(Email)] == EmailInvalid
    ensures On(Duration) in errors ==> errors[On(Duration)] == EndDateMissing
  {
    var none: Errors := map[];
    var withName := if v.nameBlank then none[On(Name) := NameRequired] else none;
    var withPhone :=
      if v.phoneBlank then withName[On(Phone) := PhoneRequired]
      else if v.phoneMalformed then withName[On(Phone) := PhoneInvalid]
      else withName;
    var withEmail := if v.emailMalformed then withPhone[On(Email) := EmailInvalid] else withPhone;
    if v.endDateMissing then withEmail[On(Duration) := EndDateMissing] else withEmail
  }

  /** `validateForm`: the errors it records for a form and the end date
      held in the dialog, one per input that breaks a rule. */
  function ValidateForm(form: Form, endDate: string): (errors: Errors)
    ensures errors.Keys <= {On(Name), On(Phone), On(Email), On(Duration)}
    ensures On(Name) in errors <==> Blank(form.name)
    ensures On(Phone) in errors <==> Blank(form.phone) || !PhoneDigitsValid(form.phone)
    ensures On(Email) in errors <==> form.email != [] && !EmailPattern(form.email)
    ensures On(Duration) in errors <==> endDate == []
  {
    ErrorsFor(Check(form, endDate))
  }

  /** The form passes validation exactly when every rule holds; an empty end
      date alone is enough to fail it. */
  lemma ValidateFormAccepts(form: Form, endDate: string)
    ensures ValidateForm(form, endDate) == map[] <==>
              && !Blank(form.name)
              && !Blank(form.phone) && PhoneDigitsValid(form.phone)
              && (form.email == [] || EmailPattern(form.email))
              && endDate != []
  {
    var v := Check(form, endDate);
    var errors := ErrorsFor(v);
    if On(Name) !in errors && On(Phone) !in errors && On(Email) !in errors && On(Duration) !in errors {
      assert errors.Keys == {};
      assert errors == map[];
    }
  }

  /** The row `handleSubmit` inserts: every form field, the end date and the
      creation time. */
  function Row(form: Form, endDate: string, createdAt: string): (row: Record)
    ensures row.Keys == {"name", "email", "phone", "service", "subscription_type",
                         "start_date", "duration", "notes", "end_date", "created_at"}
    ensures forall f: Field :: row[f.Key()] == Get(form, f)
    ensures row["end_date"] == Str(endDate) && row["created_at"] == Str(createdAt)
  {
    map["name" := Str(form.name), "email" := Str(form.email), "phone" := Str(form.phone),
        "service" := Str(form.service), "subscription_type" := Str(form.subscriptionType),
        "start_date" := Str(form.startDate), "duration" := Num(form.duration),
        "notes" := Str(form.notes), "end_date" := Str(endDate), "created_at" := Str(createdAt)]
  }

  /** How the insert went: accepted, or rejected with the error's message. */
  datatype InsertOutcome = Inserted | InsertFailed(message: string)

  /** The dialog after a submit: its errors, the write it sent, if any, and
      whether it closed. */
  datatype Submission = Submission(errors: Errors, write: Option<Write>, closed: bool)

  /** `handleSubmit`, with the insert's outcome and the clock as inputs. */
  function Submit(s: State, createdAt: string, outcome: InsertOutcome): (r: Submission)
    ensures r.write.Some? <==> ValidateForm(s.form, s.endDate) == map[]
    ensures r.write.Some? ==> r.write.value == Insert(Row(s.form, s.endDate, createdAt))
    ensures r.closed <==> r.write.Some? && outcome.Inserted?
    ensures r.write.None? ==> r.errors == ValidateForm(s.form, s.endDate)
    ensures r.write.Some? && outcome.InsertFailed? ==> r.errors == map[Whole := FailureMessage(outcome.message)]
  {
    var errors := ValidateForm(s.form, s.endDate);
    if errors != map[] then Submission(errors, None, false)
    else
      var write := Some(Insert(Row(s.form, s.endDate, createdAt)));
      match outcome
      case Inserted => Submission(errors, write, true)
      case InsertFailed(message) => Submission(map[Whole := FailureMessage(message)], write, false)
  }

  /** `err.message || fallback`. */
  function FailureMessage(message: string): (shown: string)
    ensures shown != []
    ensures message != [] ==> shown == message
  {
    if message != [] then message else InsertFailedFallback
  }

  /** Without an end date the submit records the duration error and
      writes nothing. */
  lemma SubmitWithoutEndDate(s: State, createdAt: string, outcome: InsertOutcome)
    requires s.endDate == []
    ensures var r := Submit(s, createdAt, outcome);
            r.write.None? && !r.closed && r.errors[On(Duration)] == EndDateMissing
  {
    assert On(Duration) in ValidateForm(s.form, s.endDate);
  }

  /** The browser's own checks on the dialog, which run before
      `handleSubmit`: the duration is a number input with `min="1"` and the
      e-mail a `type="email"` input. No input here is `required`. */
  predicate BrowserAccepts(form: Form) {
    form.duration >= 1 && EmailAccepts(form.email)
  }

  /** The submit button is `disabled={isSubmitting || !endDate}`. A disabled
      default button stops both the click and the Enter key. */
  predicate SubmitEnabled(s: State, submitting: bool) {
    !submitting && s.endDate != []
  }

  /** Pressing the submit button, with `submitting` the `isSubmitting` flag
      of a request still in flight: nothing happens (`None`: no handler runs,
      nothing is written and the errors stay as they were) while the button
      is disabled or the browser's checks fail; otherwise `handleSubmit`
      runs. */
  function SubmitEvent(s: State, submitting: bool, createdAt: string, outcome: InsertOutcome): (r: Option<Submission>)
    ensures r.Some? <==> SubmitEnabled(s, submitting) && BrowserAccepts(s.form)
    ensures r.Some? ==> r.value == Submit(s, createdAt, outcome)
  {
    if SubmitEnabled(s, submitting) && BrowserAccepts(s.form) then Some(Submit(s, createdAt, outcome)) else None
  }

  /** The empty-end-date branch of `handleSubmit` cannot be reached from the
      dialog: without an end date the button is disabled. */
  lemma NoSubmitWithoutEndDate(s: State, submitting: bool, createdAt: string, outcome: InsertOutcome)
    requires s.endDate == []
    ensures SubmitEvent(s, submitting, createdAt, outcome).None?
  {
  }

  /** Between them the button, the browser and `validateForm` let an insert
      out only for a settled form whose duration is at least one and whose
      start date parses, so the stored end date lies strictly after the
      start. */
  lemma InsertedEndDateIsAfterStart(s: State, submitting: bool, createdAt: string, outcome: InsertOutcome)
    requires Settled(s)
    ensures var r := SubmitEvent(s, submitting, createdAt, outcome);
            r.Some? && r.value.write.Some? ==>
              && s.form.duration >= 1
              && ParseIso(s.form.startDate).Some?
              && var start := ParseIso(s.form.startDate).value;
                 var end := AddMonths(start, ClampedMonths(s.form.duration, s.form.subscriptionType));
                 s.endDate == FormatIso(end) && Before(start, end)
  {
  }

  /** The dialog's pattern lets a `(` through before the `@`. */
  lemma PatternAllowsParenthesis()
    ensures EmailPattern("a(b@c.d")
  {
    assert EmailSplit("a(b@c.d", 3, 5);
  }

  /** The dialog's pattern wants a dot after the `@`. */
  lemma PatternWantsDot()
    ensures !EmailPattern("a@b")
  {
    EmailMatchesIff("a@b");
  }

  /** The dialog checks the e-mail twice, and the two checks disagree both
      ways: the browser blocks an address the dialog's pattern accepts, and
      lets through one the pattern then rejects. */
  lemma EmailChecksDisagree()
    ensures EmailPattern("a(b@c.d") && !ValidEmail("a(b@c.d")
    ensures ValidEmail("a@b") && !EmailPattern("a@b")
  {
    PatternAllowsParenthesis();
    ParenthesisNotLocal();
    PatternWantsDot();
    OneLabelAddress();
  }

  /** Editing keeps the dialog's end date what its form implies: none
      exactly when the start date does not parse. */
  lemma EditsKeepEndDate(s: State, f: Field, value: string)
    ensures var r := HandleChange(s, f, value);
            r.endDate == ClampedEndDate(r.form.startDate, r.form.duration, r.form.subscriptionType)
            && (r.endDate == [] <==> ParseIso(r.form.startDate).None?)
  {
  }
}

=== FILE: browser_checks.dfy ===
/** The constraint validation a browser applies to a form's inputs before it
    lets the form submit: `required`, `min` on a number input and the
    `type="email"` format, as the HTML standard defines them. A form that
    fails any of them fires no submit event, so its submit handler does not
    run at all. */
module BrowserChecks {
  import opened Text

  /** `required` on a text, date or select control: the value is not empty.
      A value of spaces only is not empty. */
  predicate Filled(value: string) {
    value != []
  }

  predicate LetterOrDigit(c: char) {
    'a' <= c <= 'z' || 'A' <= c <= 'Z' || '0' <= c <= '9'
  }

  /** A character the local part of an address may hold: a letter, a digit
      or one of ``.!#$%&'*+/=?^_`{|}~-``, written here as ranges of ASCII. */
  predicate LocalChar(c: char) {
    || LetterOrDigit(c) || c == '!' || ('#' <= c <= '\'') || c == '*' || c == '+'
    || ('-' <= c <= '/') || c == '=' || c == '?' || ('^' <= c <= '`') || ('{' <= c <= '~')
  }

  /** A domain label: one to 63 letters, digits and hyphens, starting and
      ending with a letter or digit. */
  predicate Label(part: string) {
    && 1 <= |part| <= 63
    && LetterOrDigit(part[0]) && LetterOrDigit(part[|part| - 1])
    && forall i :: 0 <= i < |part| ==> LetterOrDigit(part[i]) || part[i] == '-'
  }

  /** A valid e-mail address: a non-empty local part, one `@`, then one or
      more labels separated by dots. */
  predicate ValidEmail(s: string) {
    var local := BeforeFirst(s, '@');
    && local != [] && |local| < |s|
    && (forall i :: 0 <= i < |local| ==> LocalChar(local[i]))
    && var labels := Split(s[|local| + 1..], '.');
    && forall i :: 0 <= i < |labels| ==> Label(labels[i])
  }

  /** `type="email"` without `required`: an empty value passes. */
  predicate EmailAccepts(value: string) {
    value == [] || ValidEmail(value)
  }

  /** The value of a number input with `required`, `min="1"` and the
      default step of 1, written as decimal text: a whole number of at
      least one, optionally followed by a fraction of zeros (`2.0`). The
      step check rejects any other fraction, such as `1.5`. */
  predicate WholeNumberAtLeastOne(t: string) {
    var whole := DigitPrefix(t);
    && whole != [] && DigitsValue(whole) >= 1
    && (|whole| == |t|
        || (|whole| + 1 < |t| && t[|whole|] == '.'
            && forall i :: |whole| < i < |t| ==> t[i] == '0'))
  }

  /** `a@b`, one local character and one label, is a valid address: no dot
      is needed in the domain. */
  lemma OneLabelAddress()
    ensures ValidEmail("a@b")
  {
    assert BeforeFirst("a@b", '@') == "a";
    assert Split("b", '.') == ["b"];
  }

  /** `(` may not appear in the local part. */
  lemma ParenthesisNotLocal()
    ensures !ValidEmail("a(b@c.d")
  {
    assert BeforeFirst("a(b@c.d", '@') == "a(b";
    assert !LocalChar("a(b"[1]);
  }

  /** A valid address has its `@` after a non-empty local part and neither
      starts nor ends with a dot: the first character is a local one and the
      last closes a label. */
  lemma ValidEmailShape(s: string)
    requires ValidEmail(s)
    ensures '@' in s && s[0] != '@' && s[0] != ' '
    ensures s[|s| - 1] != '.' && s[|s| - 1] != '@'
  {
    var local := BeforeFirst(s, '@');
    assert s[0] == local[0];
    var domain := s[|local| + 1..];
    var labels := Split(domain, '.');
    SplitLast(domain, '.');
    assert Label(labels[|labels| - 1]);
  }

  /** The last piece of a split is a suffix of the text. */
  lemma {:induction false} SplitLast(s: string, c: char)
    ensures var parts := Split(s, c);
            |parts[|parts| - 1]| <= |s| && parts[|parts| - 1] == s[|s| - |parts[|parts| - 1]|..]
    decreases |s|
  {
    var head := BeforeFirst(s, c);
    if |head| < |s| {
      SplitLast(s[|head| + 1..], c);
    }
  }
}

=== FILE: calendar.dfy ===
/** Calendar dates and instants, and the date-library operations the
    dashboard calls: `addMonths`, `differenceInDays`, `isToday`/`isYesterday`,
    `parseISO` and `format` for the patterns the code uses. The local time
    zone is taken to be UTC. */
module Calendar {
  import opened Options
  import opened Text

  /** A proleptic Gregorian calendar date. */
  datatype Date = Date(year: int, month: int, day: int)

  predicate IsLeapYear(y: int) {
    (y % 4 == 0 && y % 100 != 0) || y % 400 == 0
  }

  function DaysInMonth(y: int, m: int): (n: int)
    requires 1 <= m <= 12
    ensures 28 <= n <= 31
    ensures m == 2 ==> (n == 29 <==> IsLeapYear(y))
  {
    if m == 2 then (if IsLeapYear(y) then 29 else 28)
    else if m == 4 || m == 6 || m == 9 || m == 11 then 30
    else 31
  }

  predicate Valid(d: Date) {
    1 <= d.month <= 12 && 1 <= d.day <= DaysInMonth(d.year, d.month)
  }

  /** Strict calendar order. */
  predicate Before(a: Date, b: Date) {
    || a.year < b.year
    || (a.year == b.year && a.month < b.month)
    || (a.year == b.year && a.month == b.month && a.day < b.day)
  }

  /** Months elapsed since January of year 0. */
  function MonthIndex(d: Date): int {
    d.year * 12 + d.month - 1
  }

  /** `addMonths(d, n)`: moves the month by `n` (backwards when `n` is
      negative) and keeps the day of the month, clamped to the length of the
      month it lands in. */
  function AddMonths(d: Date, n: int): (r: Date)
    requires Valid(d)
    ensures Valid(r)
    ensures MonthIndex(r) == MonthIndex(d) + n
    ensures r.day == d.day || (r.day < d.day && r.day == DaysInMonth(r.year, r.month))
  {
    var total := MonthIndex(d) + n;
    var y := total / 12;
    var m := total % 12 + 1;
    var last := DaysInMonth(y, m);
    Date(y, m, if d.day <= last then d.day else last)
  }

  /** Two dates of valid months with the same month index are in the same
      month of the same year. */
  lemma MonthIndexInjective(a: Date, b: Date)
    requires 1 <= a.month <= 12 && 1 <= b.month <= 12
    requires MonthIndex(a) == MonthIndex(b)
    ensures a.year == b.year && a.month == b.month
  {
  }

  /** A later month index means a later date, whatever the days. */
  lemma MonthIndexOrder(a: Date, b: Date)
    requires 1 <= a.month <= 12 && 1 <= b.month <= 12
    requires MonthIndex(a) < MonthIndex(b)
    ensures Before(a, b)
  {
  }

  /** Adding no months returns the date itself. */
  lemma AddMonthsZero(d: Date)
    requires Valid(d)
    ensures AddMonths(d, 0) == d
  {
    var r := AddMonths(d, 0);
    MonthIndexInjective(r, d);
  }

  /** Adding a positive number of months moves strictly forward, a negative
      number strictly backward. */
  lemma AddMonthsDirection(d: Date, n: int)
    requires Valid(d)
    ensures n > 0 ==> Before(d, AddMonths(d, n))
    ensures n < 0 ==> Before(AddMonths(d, n), d)
  {
    var r := AddMonths(d, n);
    if n > 0 {
      MonthIndexOrder(d, r);
    } else if n < 0 {
      MonthIndexOrder(r, d);
    }
  }

  /** Days since 1970-01-01 (the civil-from-days count of the proleptic
      Gregorian calendar). */
  function DayNumber(d: Date): int
    requires Valid(d)
  {
    var y := if d.month <= 2 then d.year - 1 else d.year;
    var era := y / 400;
    var yearOfEra := y - era * 400;
    var shiftedMonth := if d.month > 2 then d.month - 3 else d.month + 9;
    var dayOfYear := (153 * shiftedMonth + 2) / 5 + d.day - 1;
    var dayOfEra := yearOfEra * 365 + yearOfEra / 4 - yearOfEra / 100 + dayOfYear;
    era * 146097 + dayOfEra - 719468
  }

  const MsPerDay: int := 86400000

  /** A point in time: a date and the milliseconds elapsed since its
      midnight. */
  datatype Instant = Instant(date: Date, msOfDay: int)

  predicate ValidInstant(t: Instant) {
    Valid(t.date) && 0 <= t.msOfDay < MsPerDay
  }

  /** Milliseconds since the epoch, what `getTime()` returns. */
  function EpochMs(t: Instant): int
    requires Valid(t.date)
  {
    DayNumber(t.date) * MsPerDay + t.msOfDay
  }

  /** Midnight at the start of `d`, which is what `new Date('yyyy-MM-dd')`
      denotes. */
  function StartOfDay(d: Date): Instant {
    Instant(d, 0)
  }

  /** `Math.trunc(a / b)`: JavaScript rounds toward zero, where Dafny's `/`
      rounds toward negative infinity for a positive divisor. */
  function TruncDiv(a: int, b: int): (q: int)
    requires b > 0
    ensures a >= 0 ==> q * b <= a < q * b + b
    ensures a < 0 ==> q * b - b < a <= q * b
  {
    if a >= 0 then a / b else -((-a) / b)
  }

  /** `differenceInDays(later, earlier)`: the number of full days between the
      two instants, rounded toward zero. */
  function DifferenceInDays(later: Instant, earlier: Instant): (days: int)
    requires Valid(later.date) && Valid(earlier.date)
    ensures var gap := EpochMs(later) - EpochMs(earlier);
            && (gap >= 0 ==> 0 <= days && days * MsPerDay <= gap < days * MsPerDay + MsPerDay)
            && (gap < 0 ==> days <= 0 && days * MsPerDay - MsPerDay < gap <= days * MsPerDay)
  {
    TruncDiv(EpochMs(later) - EpochMs(earlier), MsPerDay)
  }

  /** From a midnight to an instant, the full-day count is the calendar-day
      difference, less one when the end lies in the future and the clock has
      already left midnight today: the last day is then not a full one. */
  lemma DifferenceFromMidnight(end: Date, now: Instant)
    requires Valid(end) && ValidInstant(now)
    ensures var k := DayNumber(end) - DayNumber(now.date);
            DifferenceInDays(StartOfDay(end), now) == if k > 0 && now.msOfDay > 0 then k - 1 else k
  {
    var k := DayNumber(end) - DayNumber(now.date);
    var t := now.msOfDay;
    var diff := EpochMs(StartOfDay(end)) - EpochMs(now);
    assert diff == k * MsPerDay - t;
    var q := DifferenceInDays(StartOfDay(end), now);
    if k > 0 && t > 0 {
      assert diff == (k - 1) * MsPerDay + (MsPerDay - t);
      assert q * MsPerDay <= diff < q * MsPerDay + MsPerDay;
      assert q == k - 1;
    } else if k > 0 {
      assert q == k;
    } else {
      assert diff <= 0;
      if diff == 0 {
        assert q == 0;
      } else {
        assert q * MsPerDay - MsPerDay < diff <= q * MsPerDay;
        assert q == k;
      }
    }
  }

  /** `isToday(t)` with the clock at `now`. */
  predicate IsToday(t: Instant, now: Instant)
    requires Valid(t.date) && Valid(now.date)
  {
    DayNumber(t.date) == DayNumber(now.date)
  }

  /** `isYesterday(t)` with the clock at `now`. */
  predicate IsYesterday(t: Instant, now: Instant)
    requires Valid(t.date) && Valid(now.date)
  {
    DayNumber(t.date) == DayNumber(now.date) - 1
  }

  /** Today and yesterday are calendar days, whatever the clock: `t` is
      today exactly when its midnight is no full day away from the midnight
      of `now`, and yesterday exactly when it is one full day before. */
  lemma TodayAndYesterdayByMidnights(t: Instant, now: Instant)
    requires Valid(t.date) && Valid(now.date)
    ensures IsToday(t, now) <==> DifferenceInDays(StartOfDay(t.date), StartOfDay(now.date)) == 0
    ensures IsYesterday(t, now) <==> DifferenceInDays(StartOfDay(t.date), StartOfDay(now.date)) == -1
    ensures !(IsToday(t, now) && IsYesterday(t, now))
  {
    var k := DayNumber(t.date) - DayNumber(now.date);
    assert EpochMs(StartOfDay(t.date)) - EpochMs(StartOfDay(now.date)) == k * MsPerDay;
  }

  /** Two decimal digits, zero-padded. */
  function Pad2(n: nat): (r: string)
    requires n < 100
    ensures |r| == 2 && AllDigits(r) && DigitsValue(r) == n
  {
    var r := [DigitChar(n / 10), DigitChar(n % 10)];
    DigitsValueOfTwo(r);
    r
  }

  /** Four decimal digits, zero-padded. */
  function Pad4(n: nat): (r: string)
    requires n < 10000
    ensures |r| == 4 && AllDigits(r) && DigitsValue(r) == n
  {
    var r := Pad2(n / 100) + Pad2(n % 100);
    assert r[..3][..2] == Pad2(n / 100);
    assert r[..3] == r[..2] + [r[2]];
    assert r[..2] == Pad2(n / 100);
    r
  }

  /** The `yyyy` field. A year `y` up to 0 is written as the era year
      `1 - y` (there is no year 0 in that count, and no minus sign), padded
      to four digits; longer numbers are written out in full. */
  function FormatYear(y: int): (r: string)
    ensures 1 <= y < 10000 ==> r == Pad4(y)
    ensures r != [] && AllDigits(r) && DigitsValue(r) == (if y > 0 then y else 1 - y)
    ensures (if y > 0 then y else 1 - y) < 10000 ==> |r| == 4
  {
    var era := if y > 0 then y else 1 - y;
    if era < 10000 then Pad4(era) else NatToString(era)
  }

  /** `format(d, 'yyyy-MM-dd')`. */
  function FormatIso(d: Date): (r: string)
    requires Valid(d)
    ensures |r| > 6 && r[|r| - 6] == '-' && r[|r| - 3] == '-'
    ensures AllDigits(r[..|r| - 6]) && DigitsValue(r[..|r| - 6]) == (if d.year > 0 then d.year else 1 - d.year)
    ensures AllDigits(r[|r| - 5..|r| - 3]) && DigitsValue(r[|r| - 5..|r| - 3]) == d.month
    ensures AllDigits(r[|r| - 2..]) && DigitsValue(r[|r| - 2..]) == d.day
  {
    var year := FormatYear(d.year);
    var r := year + "-" + Pad2(d.month) + "-" + Pad2(d.day);
    assert r[..|r| - 6] == year;
    assert r[|r| - 5..|r| - 3] == Pad2(d.month);
    assert r[|r| - 2..] == Pad2(d.day);
    r
  }

  /** `format(d, 'dd/MM/yyyy')`. */
  function FormatDayMonthYear(d: Date): (r: string)
    requires Valid(d)
    ensures |r| > 6 && r[2] == '/' && r[5] == '/'
    ensures AllDigits(r[..2]) && DigitsValue(r[..2]) == d.day
    ensures AllDigits(r[3..5]) && DigitsValue(r[3..5]) == d.month
    ensures AllDigits(r[6..]) && DigitsValue(r[6..]) == (if d.year > 0 then d.year else 1 - d.year)
  {
    var r := Pad2(d.day) + "/" + Pad2(d.month) + "/" + FormatYear(d.year);
    assert r[..2] == Pad2(d.day);
    assert r[3..5] == Pad2(d.month);
    assert r[6..] == FormatYear(d.year);
    r
  }

  /** `format(t, 'HH:mm')`: the hour and minute of the day. */
  function FormatClock(t: Instant): (r: string)
    requires ValidInstant(t)
    ensures |r| == 5 && r[2] == ':'
  {
    Pad2(t.msOfDay / 3600000) + ":" + Pad2(t.msOfDay / 60000 % 60)
  }

  /** `parseISO(s)` for a calendar date `yyyy-MM-dd`: `None` is the invalid
      date it yields for any other text or for a day the month lacks. */
  function ParseIso(s: string): (r: Option<Date>)
    ensures r.Some? ==> Valid(r.value) && 0 <= r.value.year < 10000
    ensures s == [] ==> r.None?
  {
    if |s| == 10 && s[4] == '-' && s[7] == '-'
       && AllDigits(s[..4]) && AllDigits(s[5..7]) && AllDigits(s[8..])
    then
      var d := Date(DigitsValue(s[..4]), DigitsValue(s[5..7]), DigitsValue(s[8..]));
      assert DigitsValue(s[..4]) < 10000 by { Pad4Inverse(s[..4]); }
      if Valid(d) then Some(d) else None
    else None
  }

  lemma DigitsValueOfTwo(s: string)
    requires |s| == 2 && AllDigits(s)
    ensures DigitsValue(s) == DigitValue(s[0]) * 10 + DigitValue(s[1])
  {
    var first := s[..1];
    assert first[..0] == [];
    assert DigitsValue(first) == DigitValue(s[0]);
    assert s[..|s| - 1] == first;
  }

  lemma Pad2Inverse(s: string)
    requires |s| == 2 && AllDigits(s)
    ensures DigitsValue(s) < 100 && Pad2(DigitsValue(s)) == s
  {
    DigitsValueOfTwo(s);
  }

  lemma Pad4Inverse(s: string)
    requires |s| == 4 && AllDigits(s)
    ensures DigitsValue(s) < 10000 && Pad4(DigitsValue(s)) == s
  {
    var hi := s[..2];
    var lo := s[2..];
    Pad2Inverse(hi);
    Pad2Inverse(lo);
    DigitsValueOfFour(s);
    var n := DigitsValue(s);
    assert n / 100 == DigitsValue(hi) && n % 100 == DigitsValue(lo);
    assert s == hi + lo;
  }

  /** The value of four digits is that of the first two, times 100, plus
      that of the last two. */
  lemma DigitsValueOfFour(s: string)
    requires |s| == 4 && AllDigits(s)
    ensures DigitsValue(s) == DigitsValue(s[..2]) * 100 + DigitsValue(s[2..])
  {
    var three := s[..3];
    assert three[..2] == s[..2];
    assert DigitsValue(three) == DigitsValue(s[..2]) * 10 + DigitValue(s[2]);
    assert s[..|s| - 1] == three;
    DigitsValueOfTwo(s[2..]);
  }

  /** Formatting a date of the years 1 to 9999 and parsing it back gives
      the date. */
  lemma ParseFormatIso(d: Date)
    requires Valid(d) && 1 <= d.year < 10000
    ensures ParseIso(FormatIso(d)) == Some(d)
  {
    var s := FormatIso(d);
    assert s[..4] == Pad4(d.year);
    assert s[5..7] == Pad2(d.month);
    assert s[8..] == Pad2(d.day);
  }

  /** A text `parseISO` accepts is exactly how `format` writes the date it
      denotes, unless its year is 0000: that date is written back as the
      year 0001. */
  lemma FormatParseIso(s: string)
    requires ParseIso(s).Some?
    ensures ParseIso(s).value.year >= 1 <==> FormatIso(ParseIso(s).value) == s
    ensures ParseIso(s).value.year == 0 ==> FormatIso(ParseIso(s).value)[..4] == "0001"
  {
    var d := ParseIso(s).value;
    Pad4Inverse(s[..4]);
    Pad2Inverse(s[5..7]);
    Pad2Inverse(s[8..]);
    assert s == s[..4] + "-" + s[5..7] + "-" + s[8..];
  }
}

=== FILE: chat_list.dfy ===
/** The chat list page (`app/chats/page.jsx`): each chat is shown with a
    display name, an avatar whose text is the name's initials and whose
    colour comes from a string hash of the chat id, a time stamp and a
    message preview; the list can be searched and paged. */
module ChatList {
  import opened Options
  import opened Text
  import opened Calendar
  import opened Seqs
  import ChatsRoute

  /** A chat as the backend returns it. `jid` is the WhatsApp id
      (`<phone>@<server>`); `lastMessageTime` is the instant `new Date`
      reads from the stored time, `None` when there is none or it is not a
      date. */
  datatype Chat = Chat(
    jid: string,
    name: Option<string>,
    lastMessage: Option<string>,
    lastIsFromMe: bool,
    lastSender: Option<string>,
    lastMessageTime: Option<Instant>)

  /** A text field is truthy when present and not empty. */
  predicate Truthy(field: Option<string>) {
    field.Some? && field.value != []
  }

  /** The phone part of a jid: `jid.split('@')[0]`. */
  function PhoneOf(jid: string): (phone: string)
    ensures IsPrefix(phone, jid) && '@' !in phone
  {
    Split(jid, '@')[0]
  }

  /** `openChat`: the route of the chat page, which carries the jid up to
      its first `@`. */
  function ChatRoute(chat: Chat): (route: string)
    ensures |route| >= 6 && route[..6] == "/chat/"
    ensures IsPrefix(route[6..], chat.jid) && '@' !in route[6..]
    ensures |route| - 6 < |chat.jid| ==> chat.jid[|route| - 6] == '@'
  {
    "/chat/" + PhoneOf(chat.jid)
  }

  /** A jid of the form `<phone>@<server>` opens the page of that phone. */
  lemma ChatRouteOfPhone(phone: string, server: string)
    requires '@' !in phone
    ensures ChatRoute(Chat(phone + "@" + server, None, None, false, None, None)) == "/chat/" + phone
  {
    var jid := phone + "@" + server;
    BeforeFirstAt(jid, '@', |phone|);
    assert jid[..|phone|] == phone;
  }

  /** `getDisplayName`: the name when it is truthy, the phone otherwise. */
  function DisplayName(chat: Chat): (shown: string)
    ensures Truthy(chat.name) ==> shown == chat.name.value
    ensures !Truthy(chat.name) ==> shown == PhoneOf(chat.jid)
  {
    if Truthy(chat.name) then chat.name.value else PhoneOf(chat.jid)
  }

  /** `${part[0]}`: the first character of a piece, or the text
      `undefined` that an empty piece's missing first character prints as. */
  function FirstCharText(part: string): string {
    if part == [] then "undefined" else [part[0]]
  }

  /** `getAvatarText` as written: the first characters of the first two
      pieces of `name.split(' ')` when there are two or more, the first
      character of the name when there is one, else the first character of
      the jid. `None` is the exception that indexing an empty jid raises. */
  function AvatarTextAsWritten(chat: Chat): (text: Option<string>)
    ensures Truthy(chat.name) ==> text.Some?
    ensures Truthy(chat.name) && ' ' !in chat.name.value ==> text == Some([UpperChar(chat.name.value[0])])
    ensures Truthy(chat.name) && ' ' in chat.name.value ==>
              var pieces := Split(chat.name.value, ' ');
              pieces[0] != [] && pieces[1] != [] ==>
                text == Some([UpperChar(pieces[0][0]), UpperChar(pieces[1][0])])
    ensures !Truthy(chat.name) && chat.jid == [] ==> text.None?
    ensures !Truthy(chat.name) && chat.jid != [] ==> text == Some([UpperChar(chat.jid[0])])
  {
    if Truthy(chat.name) then
      var names := Split(chat.name.value, ' ');
      if |names| > 1 then
        FirstCharsUpper(names[0], names[1]);
        Some(ToUpper(FirstCharText(names[0]) + FirstCharText(names[1])))
      else
        ToUpperShort(chat.name.value[0], ' ');
        Some(ToUpper([chat.name.value[0]]))
    else if chat.jid == [] then None
    else
      ToUpperShort(chat.jid[0], ' ');
      Some(ToUpper([chat.jid[0]]))
  }

  /** The two leading characters of two non-empty pieces, upper-cased. */
  lemma FirstCharsUpper(first: string, second: string)
    ensures first != [] && second != [] ==>
              ToUpper(FirstCharText(first) + FirstCharText(second)) == [UpperChar(first[0]), UpperChar(second[0])]
  {
    if first != [] && second != [] {
      assert FirstCharText(first) + FirstCharText(second) == [first[0], second[0]];
      ToUpperShort(first[0], second[0]);
    }
  }

  /** A name that starts with a space gets the avatar text `UNDEFINED`
      followed by the next word's initial. */
  lemma LeadingSpaceAvatar()
    ensures AvatarTextAsWritten(Chat("1@s", Some(" Ali"), None, false, None, None)) == Some("UNDEFINEDA")
  {
    var chat := Chat("1@s", Some(" Ali"), None, false, None, None);
    SplitLeadingSpace();
    var text := FirstCharText("") + FirstCharText("Ali");
    assert text == "undefinedA";
    UpperUndefined();
    assert AvatarTextAsWritten(chat) == Some(ToUpper(text));
  }

  lemma SplitLeadingSpace()
    ensures Split(" Ali", ' ') == ["", "Ali"]
  {
    var name := " Ali";
    assert BeforeFirst(name, ' ') == [];
    assert name[1..] == "Ali";
    assert ' ' !in "Ali";
  }

  lemma UpperUndefined()
    ensures ToUpper("undefinedA") == "UNDEFINEDA"
  {
    var upper := ToUpper("undefinedA");
    assert forall i :: 0 <= i < |upper| ==> upper[i] == "UNDEFINEDA"[i];
  }

  /** The words of a name: the non-empty pieces between spaces, in the
      order of the name (see `WordsOfJoin`). */
  function Words(name: string): (words: seq<string>)
    ensures forall w :: w in words <==> w in Split(name, ' ') && w != []
    ensures forall w :: w in words ==> w != [] && ' ' !in w && forall x :: x in w ==> x in name
  {
    Filter(Split(name, ' '), (w: string) => w != [])
  }

  /** The words of two texts joined by a space are the words of the first
      followed by those of the second. */
  lemma WordsOfJoin(a: string, b: string)
    ensures Words(a + " " + b) == Words(a) + Words(b)
  {
    SplitAppend(a, ' ', b);
    FilterAppend(Split(a, ' '), Split(b, ' '), (w: string) => w != []);
  }

  /** A non-empty text without a space is one word; the empty text has
      none. */
  lemma WordsOfWord(w: string)
    requires ' ' !in w
    ensures Words(w) == if w == [] then [] else [w]
  {
    assert BeforeFirst(w, ' ') == w;
    assert Split(w, ' ') == [w];
  }

  /** `getAvatarText` with the evident intent: the initials of the first two
      words, or of the only word, and the jid's first character when the
      name has no word at all. */
  function AvatarText(chat: Chat): (text: Option<string>)
    ensures chat.name.Some? && |Words(chat.name.value)| > 0 ==>
              var words := Words(chat.name.value);
              && text.Some? && 1 <= |text.value| <= 2
              && (|text.value| == 2 <==> |words| > 1)
              && text.value[0] == UpperChar(words[0][0])
              && (|words| > 1 ==> text.value[1] == UpperChar(words[1][0]))
              && forall i :: 0 <= i < |text.value| ==>
                   exists x :: x in chat.name.value && x != ' ' && text.value[i] == UpperChar(x)
    ensures (chat.name.None? || |Words(chat.name.value)| == 0) && chat.jid == [] ==> text.None?
    ensures (chat.name.None? || |Words(chat.name.value)| == 0) && chat.jid != [] ==>
              text == Some([UpperChar(chat.jid[0])])
  {
    if chat.name.Some? && |Words(chat.name.value)| > 0 then
      var words := Words(chat.name.value);
      assert words[0] in words;
      assert words[0][0] in words[0];
      if |words| > 1 then
        assert words[1] in words;
        assert words[1][0] in words[1];
        ToUpperShort(words[0][0], words[1][0]);
        Some(ToUpper([words[0][0], words[1][0]]))
      else
        ToUpperShort(words[0][0], ' ');
        Some(ToUpper([words[0][0]]))
    else if chat.jid == [] then None
    else
      ToUpperShort(chat.jid[0], ' ');
      Some(ToUpper([chat.jid[0]]))
  }

  /** Two words give their two initials, capitalised. */
  lemma InitialsOfTwoWords(jid: string, first: string, second: string)
    requires first != [] && second != [] && ' ' !in first && ' ' !in second
    ensures AvatarText(Chat(jid, Some(first + " " + second), None, false, None, None))
            == Some([UpperChar(first[0]), UpperChar(second[0])])
  {
    WordsOfJoin(first, second);
    WordsOfWord(first);
    WordsOfWord(second);
    assert Words(first + " " + second) == [first, second];
    ToUpperShort(first[0], second[0]);
  }

  /** A name with a leading space, such as ` Ali`, gets the one initial of
      its word. */
  lemma LeadingSpaceAvatarCorrected(jid: string, word: string)
    requires word != [] && ' ' !in word
    ensures AvatarText(Chat(jid, Some(" " + word), None, false, None, None))
            == Some([UpperChar(word[0])])
  {
    assert Words(" " + word) == [word] by {
      WordsOfJoin([], word);
      WordsOfWord([]);
      WordsOfWord(word);
      assert [] + " " + word == " " + word;
    }
    var text := AvatarText(Chat(jid, Some(" " + word), None, false, None, None));
    assert text.Some? && |text.value| == 1 && text.value[0] == UpperChar(word[0]);
    assert text.value == [UpperChar(word[0])];
  }

  /** For names without a leading, trailing or doubled space the code as
      written already gives the intended initials. */
  lemma AvatarTextAgreesOnWellSpacedNames(chat: Chat)
    requires Truthy(chat.name)
    requires forall i :: 0 <= i < |Split(chat.name.value, ' ')| ==> Split(chat.name.value, ' ')[i] != []
    ensures AvatarTextAsWritten(chat) == AvatarText(chat)
  {
    var names := Split(chat.name.value, ' ');
    FilterKeepsAll(names, (w: string) => w != []);
    assert Words(chat.name.value) == names;
    assert names[0] == BeforeFirst(chat.name.value, ' ');
    if |names| == 1 {
      assert names[0] == chat.name.value;
    } else {
      assert FirstCharText(names[0]) + FirstCharText(names[1]) == [names[0][0], names[1][0]];
    }
  }

  /** The eight avatar colour classes. */
  const Colors: seq<string> := [
    "bg-blue-100 text-blue-600", "bg-green-100 text-green-600",
    "bg-purple-100 text-purple-600", "bg-pink-100 text-pink-600",
    "bg-yellow-100 text-yellow-600", "bg-indigo-100 text-indigo-600",
    "bg-red-100 text-red-600", "bg-cyan-100 text-cyan-600"]

  const TwoTo31: int := 0x8000_0000
  const TwoTo32: int := 0x1_0000_0000

  /** ECMAScript ToInt32: the integer congruent to `x` modulo 2^32 in the
      signed 32-bit range. */
  function ToInt32(x: int): (r: int)
    ensures -TwoTo31 <= r < TwoTo31
    ensures (r - x) % TwoTo32 == 0
  {
    var m := x % TwoTo32;
    if m >= TwoTo31 then m - TwoTo32 else m
  }

  lemma ToInt32OfInt32(x: int)
    requires -TwoTo31 <= x < TwoTo31
    ensures ToInt32(x) == x
  {
  }

  /** One step of the hash loop: `code + ((hash << 5) - hash)`. The shift
      wraps to 32 bits; the subtraction and the addition do not. */
  function HashStep(hash: int, c: char): int {
    c as int + (ToInt32(ToInt32(hash) * 32) - hash)
  }

  const MaxCode: int := 0x10FFFF

  /** The hash of a text, one character at a time from the first. It grows
      by less than 2^31 plus a character code per character, so for texts
      shorter than 2^21 characters it stays within the range where a double
      holds integers exactly. */
  function Hash(s: string): (h: int)
    ensures -|s| * (TwoTo31 + MaxCode) <= h <= |s| * (TwoTo31 + MaxCode)
    decreases |s|
  {
    if s == [] then 0 else HashStep(Hash(s[..|s| - 1]), s[|s| - 1])
  }

  /** The textbook polynomial string hash with base 31. */
  function Poly(s: string): int
    decreases |s|
  {
    if s == [] then 0 else 31 * Poly(s[..|s| - 1]) + s[|s| - 1] as int
  }

  const TwoTo26: int := 0x400_0000

  /** While every prefix's hash stays below 2^26 in magnitude the shift
      never wraps, and the hash is the polynomial hash. */
  lemma {:induction false} HashIsPolynomial(s: string)
    requires forall i :: 0 <= i < |s| ==> -TwoTo26 <= Poly(s[..i]) < TwoTo26
    ensures Hash(s) == Poly(s)
    decreases |s|
  {
    if s != [] {
      var init := s[..|s| - 1];
      assert forall i :: 0 <= i < |init| ==> init[..i] == s[..i];
      HashIsPolynomial(init);
      assert s[..|s| - 1] == init;
      var h := Poly(init);
      ToInt32OfInt32(h);
      ToInt32OfInt32(h * 32);
    }
  }

  /** `Math.abs(hash) % colors.length`. */
  function ColorIndex(s: string): (i: nat)
    ensures i < |Colors|
  {
    var h := Hash(s);
    (if h < 0 then -h else h) % |Colors|
  }

  /** `getAvatarColor(str)`, computed with the page's loop. */
  method AvatarColor(str: string) returns (color: string)
    ensures color == Colors[ColorIndex(str)]
  {
    var hash := 0;
    var i := 0;
    while i < |str|
      invariant 0 <= i <= |str|
      invariant hash == Hash(str[..i])
    {
      assert str[..i + 1][..i] == str[..i];
      hash := str[i] as int + (ToInt32(ToInt32(hash) * 32) - hash);
      i := i + 1;
    }
    assert str[..|str|] == str;
    var magnitude := if hash < 0 then -hash else hash;
    color := Colors[magnitude % |Colors|];
  }

  const NoMessages: string := "No messages yet"
  const FromMe: string := "You: "

  /** `getMessagePreview`: the last message after who sent it. */
  function MessagePreview(chat: Chat): (preview: string)
    ensures !Truthy(chat.lastMessage) ==> preview == NoMessages
    ensures Truthy(chat.lastMessage) ==>
              && |chat.lastMessage.value| <= |preview|
              && preview[|preview| - |chat.lastMessage.value|..] == chat.lastMessage.value
    ensures Truthy(chat.lastMessage) && chat.lastIsFromMe ==> preview == FromMe + chat.lastMessage.value
    ensures Truthy(chat.lastMessage) && !chat.lastIsFromMe && Truthy(chat.lastSender) ==>
              preview == chat.lastSender.value + ": " + chat.lastMessage.value
    ensures Truthy(chat.lastMessage) && !chat.lastIsFromMe && !Truthy(chat.lastSender) ==>
              preview == chat.lastMessage.value
  {
    if !Truthy(chat.lastMessage) then NoMessages
    else
      var prefix := if chat.lastIsFromMe then FromMe
                    else if Truthy(chat.lastSender) then chat.lastSender.value + ": "
                    else [];
      prefix + chat.lastMessage.value
  }

  /** How `formatDate` renders a time stamp: nothing, the time of day, the
      weekday, or the month and day. The locale text itself is not
      modelled. */
  datatype Stamp = NoStamp | TimeOfDay(time: Instant) | Weekday(date: Date) | MonthDay(date: Date)

  function StampFor(time: Option<Instant>, now: Instant): (stamp: Stamp)
    requires ValidInstant(now)
    requires time.Some? ==> ValidInstant(time.value)
    ensures stamp.NoStamp? <==> time.None?
    ensures stamp.TimeOfDay? ==> time == Some(stamp.time) && stamp.time.date == now.date
    ensures stamp.Weekday? || stamp.MonthDay? ==> time.Some? && stamp.date == time.value.date != now.date
  {
    match time
    case None => NoStamp
    case Some(t) =>
      if t.date == now.date then TimeOfDay(t)
      else if (EpochMs(now) - EpochMs(t)) / MsPerDay < 7 then Weekday(t.date)
      else MonthDay(t.date)
  }

  /** The time of day is shown for stamps of today, the weekday for the
      other days less than seven full days back (and for any day ahead),
      and the month and day beyond: with `k` the calendar days back, that
      is `k < 7`, or `k == 7` with the stamp's time of day later than the
      clock's. */
  lemma StampMeaning(t: Instant, now: Instant)
    requires ValidInstant(now) && ValidInstant(t)
    ensures var k := DayNumber(now.date) - DayNumber(t.date);
            var stamp := StampFor(Some(t), now);
            && (stamp.TimeOfDay? <==> t.date == now.date)
            && (stamp.Weekday? <==> t.date != now.date && (k < 7 || (k == 7 && now.msOfDay < t.msOfDay)))
            && (stamp.MonthDay? <==> t.date != now.date && (k > 7 || (k == 7 && now.msOfDay >= t.msOfDay)))
  {
    var k := DayNumber(now.date) - DayNumber(t.date);
    var diff := EpochMs(now) - EpochMs(t);
    assert diff == k * MsPerDay + (now.msOfDay - t.msOfDay);
    var q := diff / MsPerDay;
    if now.msOfDay >= t.msOfDay {
      assert q == k;
    } else {
      assert diff == (k - 1) * MsPerDay + (MsPerDay + now.msOfDay - t.msOfDay);
      assert q == k - 1;
    }
  }

  /** The search of the chat list: the name and the message when truthy,
      and the jid, all without regard to case. */
  predicate ChatMatches(chat: Chat, query: string) {
    || (Truthy(chat.name) && ContainsIgnoringCase(chat.name.value, query))
    || ContainsIgnoringCase(chat.jid, query)
    || (Truthy(chat.lastMessage) && ContainsIgnoringCase(chat.lastMessage.value, query))
  }

  /** `filteredChats`: an empty query keeps every chat. */
  function FilteredChats(chats: seq<Chat>, query: string): (found: seq<Chat>)
    ensures query == [] ==> found == chats
    ensures query != [] ==> forall c :: c in found <==> c in chats && ChatMatches(c, query)
  {
    if query == [] then chats else Filter(chats, c => ChatMatches(c, query))
  }

  /** `displayChats`: the filtered chats, or all of them when the search
      finds none. */
  function DisplayChats(chats: seq<Chat>, query: string): (shown: seq<Chat>)
    ensures shown == [] <==> chats == []
    ensures forall c :: c in shown ==> c in chats
    ensures FilteredChats(chats, query) == [] ==> shown == chats
    ensures FilteredChats(chats, query) != [] ==> shown == FilteredChats(chats, query)
    ensures query != [] && (exists c :: c in chats && ChatMatches(c, query)) ==>
              forall c :: c in shown <==> c in chats && ChatMatches(c, query)
  {
    var found := FilteredChats(chats, query);
    if |found| > 0 then found else chats
  }

  /** Paging: the page size and the page number. */
  const Limit: int := 50

  /** The pager shows once a page is full. */
  predicate PagerShown(shown: seq<Chat>) {
    |shown| >= Limit
  }

  /** The pager follows the displayed list, not the fetched page: it never
      shows for a page of fewer than 50 chats, shows for a full page when
      there is no search or the search finds nothing, and hides for a full
      page when the search keeps fewer than 50. */
  lemma PagerFollowsDisplay(chats: seq<Chat>, query: string)
    ensures PagerShown(DisplayChats(chats, query)) ==> |chats| >= Limit
    ensures query == [] || FilteredChats(chats, query) == [] ==>
              (PagerShown(DisplayChats(chats, query)) <==> |chats| >= Limit)
    ensures 0 < |FilteredChats(chats, query)| < Limit ==> !PagerShown(DisplayChats(chats, query))
  {
  }

  /** `Math.max(0, page - 1)` and `page + 1`. */
  function PreviousPage(page: nat): (p: nat)
    ensures page == 0 ==> p == 0
    ensures page > 0 ==> p + 1 == page
  {
    if page == 0 then 0 else page - 1
  }

  function NextPage(page: nat): (p: nat)
    ensures p == page + 1
  {
    page + 1
  }

  predicate PreviousDisabled(page: nat) {
    page == 0
  }

  /** Next then previous comes back; previous then next comes back except
      on the first page, where previous is disabled and does nothing. */
  lemma PagingRoundTrip(page: nat)
    ensures PreviousPage(NextPage(page)) == page
    ensures !PreviousDisabled(page) ==> NextPage(PreviousPage(page)) == page
    ensures PreviousDisabled(page) <==> PreviousPage(page) == page
  {
  }

  /** The query the page sends for a page number. */
  function PageQuery(page: nat): (query: (Option<string>, Option<string>))
    ensures query.0.Some? && query.1.Some?
  {
    (Some(IntToString(page)), Some(IntToString(Limit)))
  }

  /** The route's validation leaves every request of this page as it is:
      the backend is asked for exactly the page shown and 50 chats. */
  lemma PageQueryPassesValidation(page: nat)
    ensures ChatsRoute.ValidatedPaging(PageQuery(page).0, PageQuery(page).1) == ChatsRoute.Paging(page, Limit)
  {
    ParseIntOfIntToString(page);
    ParseIntOfIntToString(Limit);
    assert IntToString(page) != [] && IntToString(Limit) != [];
  }
}

=== FILE: chats_route.dfy ===
/** The `GET /api/chats` route: it reads `page` and `limit` from the query,
    forces them into range, forwards them to the chat backend's `/chats/`
    and relays the answer, turning every failure into a 500 reply. */
module ChatsRoute {
  import opened Options
  import opened Text

  const DefaultPageText: string := "10"
  const DefaultLimitText: string := "50"
  const DefaultBackend: string := "http://localhost:8000/"
  const BackendPath: string := "/chats/"
  const MaxLimit: int := 100
  const NonNumericLimit: int := 20

  /** `searchParams.get(name) || fallback`: a parameter that is missing
      (`null`) or empty reads as the fallback text. */
  function ParamOr(param: Option<string>, fallback: string): (text: string)
    ensures param.Some? && param.value != [] ==> text == param.value
    ensures param.None? || param.value == [] ==> text == fallback
  {
    match param
    case Some(v) => if v != [] then v else fallback
    case None => fallback
  }

  /** `isNaN(page) ? 0 : Math.max(0, page)`. */
  function ValidatePage(page: Option<int>): (p: int)
    ensures p >= 0
    ensures page.None? ==> p == 0
    ensures page.Some? && page.value >= 0 ==> p == page.value
    ensures page.Some? && page.value < 0 ==> p == 0
  {
    match page
    case None => 0
    case Some(n) => if n < 0 then 0 else n
  }

  /** `isNaN(limit) ? 20 : Math.min(Math.max(1, limit), 100)`. */
  function ValidateLimit(limit: Option<int>): (l: int)
    ensures 1 <= l <= MaxLimit
    ensures limit.None? ==> l == NonNumericLimit
    ensures limit.Some? && 1 <= limit.value <= MaxLimit ==> l == limit.value
    ensures limit.Some? && limit.value < 1 ==> l == 1
    ensures limit.Some? && limit.value > MaxLimit ==> l == MaxLimit
  {
    match limit
    case None => NonNumericLimit
    case Some(n) => if n < 1 then 1 else if n > MaxLimit then MaxLimit else n
  }

  /** The page and limit the route forwards, from the raw query values. */
  datatype Paging = Paging(page: int, limit: int)

  function ValidatedPaging(pageParam: Option<string>, limitParam: Option<string>): (r: Paging)
    ensures r.page >= 0 && 1 <= r.limit <= MaxLimit
  {
    Paging(ValidatePage(ParseInt(ParamOr(pageParam, DefaultPageText))),
           ValidateLimit(ParseInt(ParamOr(limitParam, DefaultLimitText))))
  }

  /** Validation is idempotent: a value already in range passes unchanged. */
  lemma ValidationIdempotent(page: Option<int>, limit: Option<int>)
    ensures ValidatePage(Some(ValidatePage(page))) == ValidatePage(page)
    ensures ValidateLimit(Some(ValidateLimit(limit))) == ValidateLimit(limit)
  {
  }

  lemma ParseTen()
    ensures ParseInt(DefaultPageText) == Some(10)
  {
    assert NatToString(10) == NatToString(1) + [DigitChar(0)];
    assert IntToString(10) == DefaultPageText;
    ParseIntOfIntToString(10);
  }

  lemma ParseFifty()
    ensures ParseInt(DefaultLimitText) == Some(50)
  {
    assert NatToString(50) == NatToString(5) + [DigitChar(0)];
    assert IntToString(50) == DefaultLimitText;
    ParseIntOfIntToString(50);
  }

  /** A missing or empty `page` means page 10 and a missing or empty `limit`
      means 50, while text that is not a number means page 0 and limit 20. */
  lemma DefaultsAndFallbacks(pageParam: Option<string>, limitParam: Option<string>)
    ensures (pageParam.None? || pageParam == Some([])) ==> ValidatedPaging(pageParam, limitParam).page == 10
    ensures (limitParam.None? || limitParam == Some([])) ==> ValidatedPaging(pageParam, limitParam).limit == 50
    ensures pageParam.Some? && pageParam.value != [] && ParseInt(pageParam.value).None? ==>
              ValidatedPaging(pageParam, limitParam).page == 0
    ensures limitParam.Some? && limitParam.value != [] && ParseInt(limitParam.value).None? ==>
              ValidatedPaging(pageParam, limitParam).limit == NonNumericLimit
  {
    ParseTen();
    ParseFifty();
  }

  /** The backend request: where it goes and the query it carries. */
  datatype BackendRequest = BackendRequest(base: string, path: string, query: seq<(string, string)>)

  /** `new URL(BACKEND_API_URL || default)` with its path set to `/chats/`
      and the validated `page` and `limit` written into the query. */
  function BackendRequestFor(backendUrl: Option<string>, paging: Paging): (req: BackendRequest)
    ensures req.path == BackendPath
    ensures |req.query| == 2 && req.query[0].0 == "page" && req.query[1].0 == "limit"
  {
    BackendRequest(ParamOr(backendUrl, DefaultBackend), BackendPath,
                   [("page", IntToString(paging.page)), ("limit", IntToString(paging.limit))])
  }

  /** Whatever the incoming query, the backend receives exactly the
      validated page and limit: reading its query back gives them. */
  lemma BackendCarriesValidatedPaging(backendUrl: Option<string>, pageParam: Option<string>, limitParam: Option<string>)
    ensures var paging := ValidatedPaging(pageParam, limitParam);
            var req := BackendRequestFor(backendUrl, paging);
            && ParseInt(req.query[0].1) == Some(paging.page)
            && ParseInt(req.query[1].1) == Some(paging.limit)
            && req.path == BackendPath
            && (backendUrl.None? ==> req.base == DefaultBackend)
  {
    var paging := ValidatedPaging(pageParam, limitParam);
    ParseIntOfIntToString(paging.page);
    ParseIntOfIntToString(paging.limit);
  }

  /** What the call to the backend produced. */
  datatype BackendOutcome =
    | BadBackendUrl              // `new URL` threw
    | NetworkFailure             // `fetch` threw
    | HttpFailure(status: int)   // the backend answered with a non-2xx status
    | Chats(body: string)        // the backend's JSON answer

  datatype Reply = Reply(status: int, body: string)

  const FailureBody: string := "{\"error\":\"Failed to fetch chats\"}"

  /** The reply the route sends for a backend outcome. */
  function Respond(outcome: BackendOutcome): (reply: Reply)
    ensures reply.status == 200 <==> outcome.Chats?
    ensures outcome.Chats? ==> reply.body == outcome.body
    ensures !outcome.Chats? ==> reply == Reply(500, FailureBody)
  {
    match outcome
    case Chats(body) => Reply(200, body)
    case _ => Reply(500, FailureBody)
  }
}

=== FILE: customer_list.dfy ===
/** One customer card of the dashboard list
    (`components/customers/CustomerList.jsx`): the initial, the subscription
    period, and the status badge with its colour and text. */
module CustomerList {
  import opened Options
  import opened Text
  import opened Calendar
  import opened Customers
  import opened Dashboard

  datatype Badge = Red | Yellow | Green

  /** `getStatusBadgeClass(remainingDays)`: red when none are left, yellow
      for the last week, green otherwise. `NaN` fails both comparisons and
      falls through to green. */
  function BadgeFor(remainingDays: Option<int>): (b: Badge)
    ensures b == Red <==> remainingDays.Some? && remainingDays.value <= 0
    ensures b == Yellow <==> remainingDays.Some? && 0 < remainingDays.value <= 7
    ensures b == Green <==> remainingDays.None? || remainingDays.value > 7
  {
    match remainingDays
    case None => Green
    case Some(n) => if n <= 0 then Red else if n <= 7 then Yellow else Green
  }

  const ExpiredLabel: string := "منتهي"
  const DaysLeftSuffix: string := " يوم متبقي"

  /** The badge text: the days left while some are, `منتهي` otherwise
      (`NaN` included). */
  function LabelFor(remainingDays: Option<int>): (text: string)
    ensures text == ExpiredLabel <==> remainingDays.None? || remainingDays.value <= 0
    ensures remainingDays.Some? && remainingDays.value > 0 ==>
              text == IntToString(remainingDays.value) + DaysLeftSuffix
  {
    match remainingDays
    case Some(n) =>
      if n > 0 then
        assert (IntToString(n) + DaysLeftSuffix)[|IntToString(n)|] == ' ';
        IntToString(n) + DaysLeftSuffix
      else ExpiredLabel
    case None => ExpiredLabel
  }

  /** What a card shows. The avatar initial is `name[0]`, absent for an
      empty name. */
  datatype Card = Card(initial: Option<char>, from: string, to: string, badge: Badge, caption: string)

  /** The card for an entry; `None` is a render that throws: a `null` name
      cannot be indexed, and `format` rejects a start or end date that is
      not a date. */
  function CardFor(e: Entry): (card: Option<Card>)
    ensures card.Some? <==>
              e.customer.name.Some? && ParseIso(e.customer.startDate).Some? && ParseIso(e.customer.endDate).Some?
    ensures card.Some? ==> card.value.badge == BadgeFor(e.remainingDays) && card.value.caption == LabelFor(e.remainingDays)
    ensures card.Some? ==> card.value.to == FormatDayMonthYear(ParseIso(e.customer.endDate).value)
  {
    match e.customer.name
    case None => None
    case Some(name) =>
      match (ParseIso(e.customer.startDate), ParseIso(e.customer.endDate))
      case (Some(start), Some(end)) =>
        Some(Card(if name == [] then None else Some(name[0]),
                  FormatDayMonthYear(start), FormatDayMonthYear(end),
                  BadgeFor(e.remainingDays), LabelFor(e.remainingDays)))
      case _ => None
  }

  /** On a card the dashboard can render, colour and text agree: the badge
      is red exactly when it reads `منتهي`, yellow for one to seven days
      left and green beyond. The green-for-`NaN` case cannot be shown,
      because a card whose end date is not a date does not render. */
  lemma CardBadgeAgreesWithLabel(c: Customer, now: Instant)
    requires Valid(now.date)
    ensures var e := Entry(c, RemainingDays(c, now));
            CardFor(e).Some? ==>
              && e.remainingDays.Some?
              && (CardFor(e).value.badge == Red <==> CardFor(e).value.caption == ExpiredLabel)
              && (CardFor(e).value.badge == Yellow <==> 1 <= e.remainingDays.value <= 7)
              && (CardFor(e).value.badge == Green <==> e.remainingDays.value > 7)
  {
  }
}

=== FILE: customers.dfy ===
/** A row of the customers table as the dashboard reads it. Optional text
    columns are `None` when the row holds `null`; the dates are the
    `yyyy-MM-dd` text the table stores. */
module Customers {
  import opened Options

  datatype Customer = Customer(
    id: int,
    name: Option<string>,
    email: Option<string>,
    phone: Option<string>,
    service: Option<string>,
    subscriptionType: string,
    startDate: string,
    endDate: string)
}

=== FILE: dashboard.dfy ===
/** The dashboard page (`app/dashboard/page.jsx`): it loads the customers,
    attaches to each the number of days left on its subscription, filters the
    list by a search term and a tab, and counts active and expired
    customers for the summary cards. */
module Dashboard {
  import opened Options
  import opened Text
  import opened Calendar
  import opened Seqs
  import opened Customers

  /** A customer with the `remainingDays` the page attaches. `None` is the
      `NaN` that an end date which is not a date produces. */
  datatype Entry = Entry(customer: Customer, remainingDays: Option<int>)

  /** `differenceInDays(new Date(customer.end_date), now)`. */
  function RemainingDays(customer: Customer, now: Instant): (days: Option<int>)
    requires Valid(now.date)
    ensures days.Some? <==> ParseIso(customer.endDate).Some?
  {
    match ParseIso(customer.endDate)
    case None => None
    case Some(end) => Some(DifferenceInDays(StartOfDay(end), now))
  }

  /** A subscription counts as active when more than zero full days are
      left: the end date is at least two days away, or it is tomorrow and the
      clock is exactly at midnight. During the day before the end date the
      customer already counts as expired. */
  lemma RemainingDaysMeaning(customer: Customer, now: Instant)
    requires ValidInstant(now) && ParseIso(customer.endDate).Some?
    ensures var k := DayNumber(ParseIso(customer.endDate).value) - DayNumber(now.date);
            var days := RemainingDays(customer, now).value;
            && (days > 0 <==> k > 1 || (k == 1 && now.msOfDay == 0))
            && (k <= 0 ==> days == k)
  {
    DifferenceFromMidnight(ParseIso(customer.endDate).value, now);
  }

  /** The loaded list: `data?.map(...) || []`, each customer with its
      remaining days, in the order the query returned them. */
  function Load(data: Option<seq<Customer>>, now: Instant): (entries: seq<Entry>)
    requires Valid(now.date)
    ensures data.None? ==> entries == []
    ensures data.Some? ==> |entries| == |data.value|
    ensures data.Some? ==> forall i :: 0 <= i < |entries| ==>
              entries[i] == Entry(data.value[i], RemainingDays(data.value[i], now))
  {
    match data
    case None => []
    case Some(customers) =>
      seq(|customers|, i requires 0 <= i < |customers| => Entry(customers[i], RemainingDays(customers[i], now)))
  }

  /** `field?.toLowerCase().includes(term.toLowerCase())`: a missing field
      matches nothing. */
  predicate FieldMatches(field: Option<string>, term: string) {
    field.Some? && ContainsIgnoringCase(field.value, term)
  }

  /** The search: name, email or service without regard to case, or the
      phone exactly as typed. */
  predicate Matches(customer: Customer, term: string) {
    || FieldMatches(customer.name, term)
    || FieldMatches(customer.email, term)
    || (customer.phone.Some? && Contains(customer.phone.value, term))
    || FieldMatches(customer.service, term)
  }

  /** The search ignores case in the name, e-mail and service, but not in
      the phone: a customer known only by a phone with letters in it is found
      by those letters as stored, and not by them upper-cased. */
  lemma SearchCaseRules(customer: Customer, term: string)
    ensures customer.phone.None? ==> Matches(customer, ToUpper(term)) == Matches(customer, term)
    ensures var c := Customer(customer.id, None, None, Some("ab"), None,
                              customer.subscriptionType, customer.startDate, customer.endDate);
            Matches(c, "ab") && !Matches(c, "AB")
  {
    if customer.name.Some? { ContainsIgnoringCaseIsCaseBlind(customer.name.value, term); }
    if customer.email.Some? { ContainsIgnoringCaseIsCaseBlind(customer.email.value, term); }
    if customer.service.Some? { ContainsIgnoringCaseIsCaseBlind(customer.service.value, term); }
    assert IsPrefix("ab", "ab");
    assert !IsPrefix("AB", "ab") && !IsPrefix("AB", "b") && !IsPrefix("AB", []);
    assert "ab"[1..] == "b" && "b"[1..] == [];
  }

  /** An empty search keeps every customer that has at least one of the
      four searched fields, and hides one that has none of them. */
  lemma EmptySearch(customer: Customer)
    ensures Matches(customer, []) <==>
              customer.name.Some? || customer.email.Some? || customer.phone.Some? || customer.service.Some?
  {
    assert ToLower([]) == [];
    if customer.name.Some? { ContainsEmpty(ToLower(customer.name.value)); }
    if customer.email.Some? { ContainsEmpty(ToLower(customer.email.value)); }
    if customer.phone.Some? { ContainsEmpty(customer.phone.value); }
    if customer.service.Some? { ContainsEmpty(ToLower(customer.service.value)); }
  }

  /** `remainingDays > 0`; `NaN` compares false. */
  predicate Active(e: Entry) {
    e.remainingDays.Some? && e.remainingDays.value > 0
  }

  /** `remainingDays <= 0`; `NaN` compares false here too. */
  predicate Expired(e: Entry) {
    e.remainingDays.Some? && e.remainingDays.value <= 0
  }

  /** An entry whose end date is a date. */
  predicate Dated(e: Entry) {
    e.remainingDays.Some?
  }

  /** The tab test: `active` and `expired` add their condition to the search,
      `all` and any other tab keep what the search keeps. */
  predicate Keep(e: Entry, tab: string, term: string) {
    if tab == "active" then Matches(e.customer, term) && Active(e)
    else if tab == "expired" then Matches(e.customer, term) && Expired(e)
    else Matches(e.customer, term)
  }

  /** `filteredCustomers`. */
  function Visible(entries: seq<Entry>, tab: string, term: string): (shown: seq<Entry>)
    ensures |shown| <= |entries|
    ensures forall e :: e in shown <==> e in entries && Keep(e, tab, term)
  {
    Filter(entries, e => Keep(e, tab, term))
  }

  /** The list keeps its order: filtering a joined list filters each part,
      and a single entry is shown exactly when the tab keeps it. */
  lemma VisibleKeepsOrder(a: seq<Entry>, b: seq<Entry>, tab: string, term: string)
    ensures Visible(a + b, tab, term) == Visible(a, tab, term) + Visible(b, tab, term)
    ensures forall e :: Visible([e], tab, term) == if Keep(e, tab, term) then [e] else []
  {
    FilterAppend(a, b, e => Keep(e, tab, term));
    forall e
      ensures Visible([e], tab, term) == if Keep(e, tab, term) then [e] else []
    {
      assert [e][1..] == [];
    }
  }

  /** Each tab is the search result narrowed by its condition, so the
      active and expired tabs together show the dated part of the `all`
      tab: all of it when every end date is a date. */
  lemma TabsSplitTheSearch(entries: seq<Entry>, term: string)
    ensures Visible(entries, "active", term) == Filter(Visible(entries, "all", term), Active)
    ensures Visible(entries, "expired", term) == Filter(Visible(entries, "all", term), Expired)
    ensures (forall e :: e in entries ==> Dated(e)) ==>
              multiset(Visible(entries, "active", term)) + multiset(Visible(entries, "expired", term))
              == multiset(Visible(entries, "all", term))
  {
    var found := Visible(entries, "all", term);
    var matches := (e: Entry) => Keep(e, "all", term);
    FilterThenFilter(entries, matches, Active, e => Keep(e, "active", term));
    FilterThenFilter(entries, matches, Expired, e => Keep(e, "expired", term));
    if forall e :: e in entries ==> Dated(e) {
      FilterPartition(found, Active, Expired);
    }
  }

  /** A tab other than the three named ones shows the same as `all`. */
  lemma UnknownTabIsAll(entries: seq<Entry>, tab: string, term: string)
    requires tab != "all" && tab != "active" && tab != "expired"
    ensures Visible(entries, tab, term) == Visible(entries, "all", term)
  {
    FilterCongruent(entries, e => Keep(e, tab, term), e => Keep(e, "all", term));
  }

  /** The counts on the summary cards. */
  datatype Summary = Summary(total: nat, active: nat, expired: nat)

  function Summarize(entries: seq<Entry>): (s: Summary)
    ensures s.total == |entries|
    ensures s.active + s.expired <= s.total
    ensures (forall e :: e in entries ==> Dated(e)) ==> s.active + s.expired == s.total
    ensures s.active == 0 <==> forall e :: e in entries ==> !Active(e)
    ensures s.expired == 0 <==> forall e :: e in entries ==> !Expired(e)
  {
    DatedSplits(entries);
    FilterEmptyIff(entries, Active);
    FilterEmptyIff(entries, Expired);
    Summary(|entries|, |Filter(entries, Active)|, |Filter(entries, Expired)|)
  }

  /** The summary counts one entry at a time: appending an entry adds one
      to the total, and one to the active or the expired count when its days
      left are positive or not, and to neither when they are `NaN`. */
  lemma SummarizeCounts(entries: seq<Entry>, e: Entry)
    ensures Summarize([]) == Summary(0, 0, 0)
    ensures Summarize(entries + [e]) ==
              Summary(Summarize(entries).total + 1,
                      Summarize(entries).active + (if Active(e) then 1 else 0),
                      Summarize(entries).expired + (if Expired(e) then 1 else 0))
  {
    FilterAppend(entries, [e], Active);
    FilterAppend(entries, [e], Expired);
    assert [e][1..] == [];
  }

  /** Active and expired entries together are exactly the dated ones. */
  lemma DatedSplits(entries: seq<Entry>)
    ensures |Filter(entries, Active)| + |Filter(entries, Expired)| == |Filter(entries, Dated)|
    ensures (forall e :: e in entries ==> Dated(e)) ==> Filter(entries, Dated) == entries
  {
    FilterThenFilter(entries, Dated, Active, Active);
    FilterThenFilter(entries, Dated, Expired, Expired);
    FilterPartition(Filter(entries, Dated), Active, Expired);
    if forall e :: e in entries ==> Dated(e) {
      FilterKeepsAll(entries, Dated);
    }
  }
}

=== FILE: delete_customer.dfy ===
/** The delete dialog (`components/modals/DeleteCustomerModal.jsx`): the
    delete button stays disabled until the confirmation word is typed
    exactly, and while a delete is in flight. */
module DeleteCustomer {
  import opened Options
  import opened Records
  import opened Customers

  const ConfirmationWord: string := "حذف"

  datatype State = State(confirmText: string, submitting: bool)

  function Open(): (s: State)
    ensures !s.submitting && s.confirmText == [] && Disabled(s)
  {
    State([], false)
  }

  /** `isDeleteButtonDisabled`. */
  predicate Disabled(s: State) {
    s.confirmText != ConfirmationWord || s.submitting
  }

  /** Typing into the confirmation box. */
  function Type(s: State, text: string): (r: State)
    ensures r.confirmText == text && r.submitting == s.submitting
  {
    s.(confirmText := text)
  }

  /** A click on the delete button: nothing when it is disabled, else the
      dialog starts submitting and the customer's row is deleted by id. */
  function Click(s: State, customer: Customer): (r: (State, Option<Write>))
    ensures r.1.Some? <==> !Disabled(s)
    ensures r.1.Some? ==> r.1.value == Delete(customer.id) && r.0 == s.(submitting := true)
    ensures r.1.None? ==> r.0 == s
  {
    if Disabled(s) then (s, None) else (s.(submitting := true), Some(Delete(customer.id)))
  }

  datatype DeleteOutcome = Deleted | DeleteFailed

  /** The end of a delete: the dialog closes on success and otherwise stays
      open with the typed word, ready for another try. */
  function Finish(s: State, outcome: DeleteOutcome): (r: (State, bool))
    ensures !r.0.submitting && r.0.confirmText == s.confirmText
    ensures r.1 <==> outcome.Deleted?
  {
    (s.(submitting := false), outcome.Deleted?)
  }

  /** A delete is sent only after the exact word has been typed, and a second
      click while the first delete is in flight sends nothing. After a failed
      delete the button works again. */
  lemma DeleteNeedsConfirmation(s: State, customer: Customer, text: string)
    ensures Click(Type(s, text), customer).1.Some? ==> text == ConfirmationWord
    ensures Click(Click(s, customer).0, customer).1.Some? ==> Click(s, customer).1.None?
    ensures Click(s, customer).1.Some? ==>
              Click(Finish(Click(s, customer).0, DeleteFailed).0, customer).1 == Some(Delete(customer.id))
  {
  }
}

=== FILE: end_date_versions.dfy ===
/** How the three end-date computations relate: the add forms' clamped rule,
    the older renew dialog's unclamped one, and the newer renew dialog's plan
    from today. */
module EndDateVersions {
  import opened Options
  import opened Text
  import opened Calendar
  import opened Records
  import opened Subscription
  import opened Customers
  import LegacyRenew
  import RenewPlan

  /** For a usable start date and a positive duration, the add forms and the
      older renew dialog agree on the end date. */
  lemma AgreeOnPositiveDurations(startDate: string, duration: int, subscriptionType: string, previous: string)
    requires ParseIso(startDate).Some? && duration > 0
    ensures ClampedEndDate(startDate, duration, subscriptionType)
            == LegacyRenew.Recalculate(LegacyRenew.Form(subscriptionType, startDate, Num(duration)), previous)
  {
    
  }

  /** For a negative duration they disagree: the add forms keep the start
      date as the end date while the older renew dialog moves it into the
      past. */
  lemma DisagreeOnNegativeDurations(startDate: string, duration: int, subscriptionType: string, previous: string)
    requires ParseIso(startDate).Some? && duration < 0
    ensures ClampedEndDate(startDate, duration, subscriptionType) == startDate
    ensures var start := ParseIso(startDate).value;
            var end := AddMonths(start, duration * Multiplier(subscriptionType));
            && LegacyRenew.Recalculate(LegacyRenew.Form(subscriptionType, startDate, Num(duration)), previous) == FormatIso(end)
            && Before(end, start)
  {
    var start := ParseIso(startDate).value;
    
    AddMonthsZero(start);
    FormatParseIso(startDate);
    LegacyRenew.EarlierByNegativeMonths(start, duration, Multiplier(subscriptionType));
  }

  /** Renewing by a plan from today gives the end date the add forms compute
      for a monthly subscription of that many months starting today. */
  lemma PlanFromTodayIsMonthly(customer: Customer, plan: RenewPlan.Plan, today: Date)
    requires Valid(today) && 1 <= today.year < 10000
    ensures var s := RenewPlan.State(plan.Text(), RenewPlan.FromToday);
            RenewPlan.NewEndDate(customer, s, today)
            == Some(ClampedEndDate(FormatIso(today), plan.Months(), Monthly))
  {
    var s := RenewPlan.State(plan.Text(), RenewPlan.FromToday);
    var months := plan.Months();
    var end := AddMonths(today, months);
    assert RenewPlan.BaseDate(customer, s, today) == Some(today);
    assert RenewPlan.NewEndDate(customer, s, today) == Some(FormatIso(end));
    var start := FormatIso(today);
    ParseFormatIso(today);
    assert start != [];
    assert ClampedMonths(months, Monthly) == months;
    assert ClampedEndDate(start, months, Monthly) == FormatIso(end);
  }
}

=== FILE: legacy_add_customer.dfy ===
/** The older add-customer dialog (`components/AddCustomerModal.jsx`): the
    same end-date rule as the newer one, but no field validation at all and
    a single error message instead of per-field errors. */
module LegacyAddCustomer {
  import opened Options
  import opened Text
  import opened Calendar
  import opened Records
  import opened Subscription
  import opened BrowserChecks

  const EndDateMissing: string := "لا يمكن حساب تاريخ الانتهاء. يرجى التحقق من تاريخ البدء والمدة."
  const InsertFailedFallback: string := "حدث خطأ غير متوقع أثناء إضافة العميل. الرجاء المحاولة مرة أخرى."

  datatype Form = Form(
    name: string, email: string, phone: string, service: string,
    subscriptionType: string, startDate: string, duration: int)

  datatype Field = Name | Email | Phone | Service | SubscriptionType | Duration | StartDate

  datatype State = State(form: Form, endDate: string, error: Option<string>)

  /** The end date the dialog's effect stores for a form. */
  function EndDate(form: Form): (end: string)
    ensures end == [] <==> ParseIso(form.startDate).None?
    ensures form.duration <= 0 && end != [] ==> end == form.startDate
    ensures form.duration > 0 && end != [] ==>
              end == FormatIso(AddMonths(ParseIso(form.startDate).value, form.duration * Multiplier(form.subscriptionType)))
  {
    ClampedEndDate(form.startDate, form.duration, form.subscriptionType)
  }

  /** The dialog as it opens on `today`, after the effect's first run. */
  function Open(today: Date): (s: State)
    requires Valid(today) && 1 <= today.year < 10000
    ensures s.error.None? && s.form.duration == 1 && s.form.subscriptionType == Monthly
    ensures ParseIso(s.form.startDate) == Some(today)
    ensures s.endDate == FormatIso(AddMonths(today, 1))
  {
    ParseFormatIso(today);
    var form := Form([], [], [], [], Monthly, FormatIso(today), 1);
    State(form, EndDate(form), None)
  }

  /** `handleChange` followed by the end-date effect. Text that is not a
      number typed into the duration is stored as 0; the error message is
      left as it was. */
  function HandleChange(s: State, f: Field, value: string): (r: State)
    ensures r.endDate == EndDate(r.form) && r.error == s.error
    ensures f == Duration ==> r.form == s.form.(duration := if ParseInt(value).Some? then ParseInt(value).value else 0)
    ensures f == StartDate ==> r.form == s.form.(startDate := value)
    ensures f == SubscriptionType ==> r.form == s.form.(subscriptionType := value)
    ensures f == Name ==> r.form == s.form.(name := value)
    ensures f == Email ==> r.form == s.form.(email := value)
    ensures f == Phone ==> r.form == s.form.(phone := value)
    ensures f == Service ==> r.form == s.form.(service := value)
  {
    var form :=
      match f
      case Name => s.form.(name := value)
      case Email => s.form.(email := value)
      case Phone => s.form.(phone := value)
      case Service => s.form.(service := value)
      case SubscriptionType => s.form.(subscriptionType := value)
      case Duration => s.form.(duration := match ParseInt(value) case Some(n) => n case None => 0)
      case StartDate => s.form.(startDate := value);
    State(form, EndDate(form), s.error)
  }

  /** The row `handleSubmit` inserts: the form with its duration as a number
      and the computed end date. */
  function Row(form: Form, endDate: string): (row: Record)
    ensures row.Keys == {"name", "email", "phone", "service", "subscription_type",
                         "start_date", "duration", "end_date"}
    ensures row["duration"] == Num(form.duration) && row["end_date"] == Str(endDate)
    ensures row["name"] == Str(form.name) && row["start_date"] == Str(form.startDate)
    ensures row["email"] == Str(form.email) && row["phone"] == Str(form.phone)
    ensures row["service"] == Str(form.service) && row["subscription_type"] == Str(form.subscriptionType)
  {
    map["name" := Str(form.name), "email" := Str(form.email), "phone" := Str(form.phone),
        "service" := Str(form.service), "subscription_type" := Str(form.subscriptionType),
        "start_date" := Str(form.startDate), "duration" := Num(form.duration),
        "end_date" := Str(endDate)]
  }

  /** What the user types reaches the row unchanged under its column, the
      duration as the number `handleChange` read from it, and the end date
      is the one the edited form implies. */
  lemma EditReachesRow(s: State, f: Field, value: string)
    ensures var r := HandleChange(s, f, value);
            var row := Row(r.form, r.endDate);
            && row["end_date"] == Str(EndDate(r.form))
            && (f == Name ==> row["name"] == Str(value))
            && (f == Email ==> row["email"] == Str(value))
            && (f == Phone ==> row["phone"] == Str(value))
            && (f == Service ==> row["service"] == Str(value))
            && (f == SubscriptionType ==> row["subscription_type"] == Str(value))
            && (f == StartDate ==> row["start_date"] == Str(value))
            && (f == Duration ==> row["duration"] == Num(match ParseInt(value) case Some(n) => n case None => 0))
            && (f != Duration ==> row["duration"] == Num(s.form.duration))
  {
  }

  datatype InsertOutcome = Inserted | InsertFailed(message: string)

  datatype Submission = Submission(error: Option<string>, write: Option<Write>, closed: bool)

  /** `handleSubmit`: the only check is that an end date exists. */
  function Submit(s: State, outcome: InsertOutcome): (r: Submission)
    ensures s.endDate == [] ==> r == Submission(Some(EndDateMissing), None, false)
    ensures s.endDate != [] ==> r.write == Some(Insert(Row(s.form, s.endDate)))
    ensures r.closed <==> s.endDate != [] && outcome.Inserted?
    ensures r.error.Some? <==> !r.closed
    ensures r.error.Some? ==> r.error.value != []
    ensures s.endDate != [] && outcome.InsertFailed? && outcome.message != [] ==> r.error == Some(outcome.message)
  {
    if s.endDate == [] then Submission(Some(EndDateMissing), None, false)
    else
      var write := Some(Insert(Row(s.form, s.endDate)));
      match outcome
      case Inserted => Submission(None, write, true)
      case InsertFailed(message) =>
        Submission(Some(if message != [] then message else InsertFailedFallback), write, false)
  }

  /** The browser's checks on the dialog, which run before `handleSubmit`:
      every input is `required`, the e-mail must also be a valid address and
      the duration, a number input with `min="1"`, at least one. */
  predicate BrowserAccepts(form: Form) {
    && Filled(form.name) && Filled(form.email) && Filled(form.phone) && Filled(form.service)
    && Filled(form.subscriptionType) && Filled(form.startDate)
    && ValidEmail(form.email) && form.duration >= 1
  }

  /** The submit button is `disabled={isSubmitting || !endDate}`. A disabled
      default button stops both the click and the Enter key. */
  predicate SubmitEnabled(s: State, submitting: bool) {
    !submitting && s.endDate != []
  }

  /** Pressing the submit button, with `submitting` the `isSubmitting` flag
      of a request still in flight: nothing happens (`None`: nothing runs
      and nothing is written) while the button is disabled or the browser's
      checks fail; otherwise `handleSubmit` runs. */
  function SubmitEvent(s: State, submitting: bool, outcome: InsertOutcome): (r: Option<Submission>)
    ensures r.Some? <==> SubmitEnabled(s, submitting) && BrowserAccepts(s.form)
    ensures r.Some? ==> r.value == Submit(s, outcome)
    ensures r.Some? ==> r.value.write == Some(Insert(Row(s.form, s.endDate)))
  {
    if SubmitEnabled(s, submitting) && BrowserAccepts(s.form) then Some(Submit(s, outcome)) else None
  }

  /** Unlike the newer dialog, this one inserts a customer whose name,
      phone and service are a single space: `required` only rejects an
      empty value, and nothing else looks at them. */
  lemma InsertsBlankCustomer(today: Date)
    requires Valid(today) && 1 <= today.year < 10000
    ensures var s0 := Open(today);
            var s1 := HandleChange(s0, Name, " ");
            var s2 := HandleChange(s1, Email, "a@b");
            var s3 := HandleChange(s2, Phone, " ");
            var s := HandleChange(s3, Service, " ");
            && SubmitEvent(s, false, Inserted).Some?
            && SubmitEvent(s, false, Inserted).value.write == Some(Insert(Row(s.form, s.endDate)))
            && Row(s.form, s.endDate)["name"] == Str(" ")
            && Row(s.form, s.endDate)["phone"] == Str(" ")
            && Row(s.form, s.endDate)["service"] == Str(" ")
  {
    SpacesPass(Open(today));
  }

  /** From any state with a usable start date, a positive duration and a
      chosen type, typing a space into the name, phone and service and a
      valid address into the e-mail gets the customer inserted. */
  lemma SpacesPass(s0: State)
    requires ParseIso(s0.form.startDate).Some? && s0.form.duration >= 1
    requires s0.form.subscriptionType != []
    ensures var s1 := HandleChange(s0, Name, " ");
            var s2 := HandleChange(s1, Email, "a@b");
            var s3 := HandleChange(s2, Phone, " ");
            var s := HandleChange(s3, Service, " ");
            && SubmitEvent(s, false, Inserted).Some?
            && SubmitEvent(s, false, Inserted).value.write == Some(Insert(Row(s.form, s.endDate)))
            && Row(s.form, s.endDate)["name"] == Str(" ")
            && Row(s.form, s.endDate)["phone"] == Str(" ")
            && Row(s.form, s.endDate)["service"] == Str(" ")
  {
    var s := HandleChange(HandleChange(HandleChange(HandleChange(s0, Name, " "), Email, "a@b"), Phone, " "), Service, " ");
    assert s.form == s0.form.(name := " ", email := "a@b", phone := " ", service := " ")
      && s.endDate == EndDate(s.form);
    assert s.endDate != [] && s.form.startDate != [];
    BlankFormPasses(s);
  }

  /** A state whose name, phone and service are a single space is inserted
      once it has an end date and its other inputs pass the browser. */
  lemma BlankFormPasses(s: State)
    requires s.endDate != [] && s.form.startDate != []
    requires s.form.duration >= 1 && s.form.subscriptionType != []
    requires s.form.name == " " && s.form.email == "a@b" && s.form.phone == " " && s.form.service == " "
    ensures SubmitEvent(s, false, Inserted).Some?
    ensures SubmitEvent(s, false, Inserted).value.write == Some(Insert(Row(s.form, s.endDate)))
    ensures Row(s.form, s.endDate)["name"] == Str(" ") && Row(s.form, s.endDate)["phone"] == Str(" ")
    ensures Row(s.form, s.endDate)["service"] == Str(" ")
  {
    OneLabelAddress();
  }
}

=== FILE: legacy_renew.dfy ===
/** The older renew dialog (`components/RenewSubscriptionModal.jsx`). It
    recomputes the end date from the start date, the duration and the type,
    but unlike the add forms it does not clamp the duration: a negative
    duration moves the end date backwards. An empty or unusable start date
    leaves the end date as it was. */
module LegacyRenew {
  import opened Options
  import opened Text
  import opened Calendar
  import opened Records
  import opened Subscription
  import opened Customers
  import opened BrowserChecks

  const RenewFailed: string := "حدث خطأ أثناء تجديد الاشتراك. الرجاء المحاولة مرة أخرى."

  /** The duration starts as the number 1 and holds the typed text after an
      edit, so it is either kind of value. */
  datatype Form = Form(subscriptionType: string, startDate: string, duration: Value)

  datatype State = State(form: Form, endDate: string, error: Option<string>)

  /** `parseInt(duration) || 0`: a number is its own integer part, text is
      read by `parseInt`, and anything that is not a number counts as 0. */
  function DurationCount(duration: Value): (n: int)
    ensures duration.Num? ==> n == duration.number
    ensures duration.Str? && ParseInt(duration.text).Some? ==> n == ParseInt(duration.text).value
    ensures duration.Str? && ParseInt(duration.text).None? ==> n == 0
  {
    match duration
    case Num(k) => k
    case Str(t) => match ParseInt(t) case Some(k) => k case None => 0
  }

  /** `calculateEndDate(data)`: the new end date, or the old one when the
      start date is empty or is not a date (`format` then throws before the
      end date is stored). */
  function Recalculate(form: Form, endDate: string): (end: string)
    ensures form.startDate == [] || ParseIso(form.startDate).None? ==> end == endDate
    ensures ParseIso(form.startDate).Some? ==>
              end == FormatIso(AddMonths(ParseIso(form.startDate).value,
                                         DurationCount(form.duration) * Multiplier(form.subscriptionType)))
  {
    if form.startDate == [] then endDate
    else
      match ParseIso(form.startDate)
      case None => endDate
      case Some(start) =>
        var months := DurationCount(form.duration) * Multiplier(form.subscriptionType);
        FormatIso(AddMonths(start, months))
  }

  /** The dialog for `customer` as it opens on `today`: the customer's type,
      today as the start, one unit of duration, and the end date the mount
      effect computes. */
  function Open(customer: Customer, today: Date): (s: State)
    requires Valid(today) && 1 <= today.year < 10000
    ensures s.form.subscriptionType == customer.subscriptionType && s.form.duration == Num(1)
    ensures ParseIso(s.form.startDate) == Some(today)
    ensures s.endDate == FormatIso(AddMonths(today, Multiplier(customer.subscriptionType)))
    ensures s.error.None?
  {
    ParseFormatIso(today);
    var form := Form(customer.subscriptionType, FormatIso(today), Num(1));
    State(form, Recalculate(form, []), None)
  }

  /** `handleChange` for the input called `name`: the named field takes the
      typed text, and the end date is recomputed from the new form or, when
      its start date cannot be used, left as it was. */
  function HandleChange(s: State, name: string, value: string): (r: State)
    ensures name == "duration" ==> r.form == s.form.(duration := Str(value))
    ensures name == "start_date" ==> r.form == s.form.(startDate := value)
    ensures name == "subscription_type" ==> r.form == s.form.(subscriptionType := value)
    ensures r.error == s.error
    ensures name == "start_date" && ParseIso(value).None? ==> r.endDate == s.endDate
    ensures name in {"duration", "start_date", "subscription_type"} ==>
              r.endDate == Recalculate(r.form, s.endDate)
  {
    if name == "subscription_type" then
      var form := s.form.(subscriptionType := value);
      s.(form := form, endDate := Recalculate(form, s.endDate))
    else if name == "start_date" then
      var form := s.form.(startDate := value);
      s.(form := form, endDate := Recalculate(form, s.endDate))
    else if name == "duration" then
      var form := s.form.(duration := Str(value));
      s.(form := form, endDate := Recalculate(form, s.endDate))
    else
      // The dialog has no other inputs, so no other name reaches here.
      s
  }

  /** Typing a negative duration over a usable start date gives an end date
      before the start: nothing here clamps the duration. */
  lemma NegativeDurationGoesBack(s: State, value: string)
    requires ParseIso(s.form.startDate).Some? && ParseInt(value).Some? && ParseInt(value).value < 0
    ensures var start := ParseIso(s.form.startDate).value;
            var end := AddMonths(start, ParseInt(value).value * Multiplier(s.form.subscriptionType));
            HandleChange(s, "duration", value).endDate == FormatIso(end) && Before(end, start)
  {
    var start := ParseIso(s.form.startDate).value;
    var n := ParseInt(value).value;
    var k := Multiplier(s.form.subscriptionType);
    var form := s.form.(duration := Str(value));
    assert HandleChange(s, "duration", value).endDate == Recalculate(form, s.endDate);
    assert Recalculate(form, s.endDate) == FormatIso(AddMonths(start, n * k));
    EarlierByNegativeMonths(start, n, k);
  }

  lemma EarlierByNegativeMonths(start: Date, n: int, k: nat)
    requires Valid(start) && n < 0 && k >= 1
    ensures Before(AddMonths(start, n * k), start)
  {
    AddMonthsDirection(start, n * k);
  }

  /** Text that is not a number typed as the duration makes the end date the
      start date itself, written as `format` writes it (the same text unless
      its year is 0000). */
  lemma NonNumericDurationEndsAtStart(s: State, value: string)
    requires ParseIso(s.form.startDate).Some? && ParseInt(value).None?
    ensures HandleChange(s, "duration", value).endDate == FormatIso(ParseIso(s.form.startDate).value)
    ensures ParseIso(s.form.startDate).value.year >= 1 ==>
              HandleChange(s, "duration", value).endDate == s.form.startDate
  {
    var start := ParseIso(s.form.startDate).value;
    var form := s.form.(duration := Str(value));
    assert DurationCount(form.duration) == 0;
    AddMonthsZero(start);
    assert HandleChange(s, "duration", value).endDate == FormatIso(start);
    FormatParseIso(s.form.startDate);
  }

  datatype UpdateOutcome = Updated | UpdateFailed

  datatype Submission = Submission(error: Option<string>, write: Write, closed: bool)

  /** `handleSubmit`: the update always goes out, with the duration exactly
      as the form holds it and the end date as shown, even when that is
      empty. */
  function Submit(customer: Customer, s: State, outcome: UpdateOutcome): (r: Submission)
    ensures r.write.Update? && r.write.id == customer.id
    ensures r.write.columns.Keys == {"subscription_type", "start_date", "duration", "end_date"}
    ensures r.write.columns["duration"] == s.form.duration
    ensures r.write.columns["end_date"] == Str(s.endDate)
    ensures r.write.columns["subscription_type"] == Str(s.form.subscriptionType)
    ensures r.write.columns["start_date"] == Str(s.form.startDate)
    ensures r.closed <==> outcome.Updated?
    ensures r.error.Some? <==> outcome.UpdateFailed?
  {
    var columns := map["subscription_type" := Str(s.form.subscriptionType),
                       "start_date" := Str(s.form.startDate),
                       "duration" := s.form.duration,
                       "end_date" := Str(s.endDate)];
    match outcome
    case Updated => Submission(None, Update(customer.id, columns), true)
    case UpdateFailed => Submission(Some(RenewFailed), Update(customer.id, columns), false)
  }

  /** A number input's `required`, `min="1"` and default step of 1: the
      value must be a whole number of at least one. The initial number is
      checked as it is, typed text as decimal text. */
  predicate DurationAtLeastOne(duration: Value) {
    match duration
    case Num(k) => k >= 1
    case Str(t) => WholeNumberAtLeastOne(t)
  }

  /** The browser's constraint check that runs before `handleSubmit`: the
      type select and the start date are `required`, and so is the duration,
      which must also be a whole number of at least one. */
  predicate BrowserAccepts(form: Form) {
    form.subscriptionType != [] && form.startDate != [] && DurationAtLeastOne(form.duration)
  }

  /** A duration the browser accepts counts as at least one unit. */
  lemma AcceptedDurationCounts(duration: Value)
    requires DurationAtLeastOne(duration)
    ensures DurationCount(duration) >= 1
  {
    if duration.Str? {
      ParseIntOfLeadingDigits(duration.text);
    }
  }

  /** The step check: `2.0` is accepted as two units, `1.5` is blocked
      although `parseInt` would read it as one. */
  lemma StepBlocksFractions()
    ensures DurationAtLeastOne(Str("2.0")) && DurationCount(Str("2.0")) == 2
    ensures !DurationAtLeastOne(Str("1.5")) && DurationCount(Str("1.5")) == 1
  {
    ZeroFractionAccepted();
    HalfBlocked();
  }

  lemma ZeroFractionAccepted()
    ensures DurationAtLeastOne(Str("2.0")) && DurationCount(Str("2.0")) == 2
  {
    assert DigitPrefix("2.0") == "2";
    assert DigitsValue("2") == 2;
    ParseIntOfLeadingDigits("2.0");
  }

  lemma HalfBlocked()
    ensures !DurationAtLeastOne(Str("1.5")) && DurationCount(Str("1.5")) == 1
  {
    assert DigitPrefix("1.5") == "1";
    assert DigitsValue("1") == 1;
    assert "1.5"[2] != '0';
    ParseIntOfLeadingDigits("1.5");
  }

  /** Pressing the submit button, with `submitting` the `isSubmitting` flag
      of a request still in flight: the button is `disabled={isSubmitting}`,
      so nothing happens (`None`, nothing is written) while a request is in
      flight or a constraint fails; otherwise `handleSubmit` runs. So every
      renewal that goes out has a start date and a duration of at least one
      unit. */
  function SubmitEvent(customer: Customer, s: State, submitting: bool, outcome: UpdateOutcome): (r: Option<Submission>)
    ensures r.Some? <==> !submitting && BrowserAccepts(s.form)
    ensures r.Some? ==> r.value == Submit(customer, s, outcome)
    ensures r.Some? ==> DurationCount(s.form.duration) >= 1 && s.form.startDate != []
  {
    if !submitting && BrowserAccepts(s.form) then
      AcceptedDurationCounts(s.form.duration);
      Some(Submit(customer, s, outcome))
    else None
  }

  /** The constraint check is what keeps renewals forward: after editing the
      duration, a renewal the browser lets through over a usable start date
      stores an end date strictly after that start, although the dialog
      itself would show a date in the past for a negative duration. */
  lemma SubmittedRenewalsMoveForward(customer: Customer, s: State, value: string, submitting: bool, outcome: UpdateOutcome)
    requires ParseIso(s.form.startDate).Some?
    ensures var r := HandleChange(s, "duration", value);
            var start := ParseIso(s.form.startDate).value;
            var end := AddMonths(start, DurationCount(Str(value)) * Multiplier(s.form.subscriptionType));
            SubmitEvent(customer, r, submitting, outcome).Some? ==>
              && Before(start, end)
              && SubmitEvent(customer, r, submitting, outcome).value.write.columns["end_date"] == Str(FormatIso(end))
  {
    var r := HandleChange(s, "duration", value);
    var start := ParseIso(s.form.startDate).value;
    var months := DurationCount(Str(value)) * Multiplier(s.form.subscriptionType);
    assert r.form == s.form.(duration := Str(value));
    assert r.endDate == FormatIso(AddMonths(start, months));
    if SubmitEvent(customer, r, submitting, outcome).Some? {
      assert DurationAtLeastOne(r.form.duration);
      assert DurationCount(Str(value)) >= 1;
      assert months == ClampedMonths(DurationCount(Str(value)), s.form.subscriptionType) > 0;
      AddMonthsDirection(start, months);
      assert Submit(customer, r, outcome).write.columns["end_date"] == Str(r.endDate);
    }
  }

}

=== FILE: options.dfy ===
/** The optional value used throughout the model: a JavaScript value that
    may be `undefined`/`null`/`NaN` is `None`, a present one is `Some`. */
module Options {

  datatype Option<+T> = None | Some(value: T) {

    /** The value, or `default` when there is none (JavaScript's `x ?? d`). */
    function GetOr(default: T): T {
      match this
      case Some(v) => v
      case None => default
    }
  }
}

=== FILE: records.dfy ===
/** The JavaScript objects the forms send to the customers table: a map from
    column name to a value that is either a string or a number. Which one a
    column holds matters, because some forms send a number where others send
    the text the user typed. */
module Records {

  datatype Value = Str(text: string) | Num(number: int)

  type Record = map<string, Value>

  /** A table write: an insert of one row, or an update of the row with the
      given id that sets exactly the listed columns. */
  datatype Write =
    | Insert(row: Record)
    | Update(id: int, columns: Record)
    | Delete(id: int)
}

=== FILE: renew_plan.dfy ===
/** The newer renew dialog (`components/modals/RenewSubscriptionModal.jsx`):
    the user picks a plan of 1, 3, 6 or 12 months and whether to extend from
    the current end date or from today; only the end date is rewritten. */
module RenewPlan {
  import opened Options
  import opened Text
  import opened Calendar
  import opened Records
  import opened Customers

  const CurrentEnd: string := "current_end"
  const FromToday: string := "today"

  /** The four plan buttons. */
  datatype Plan = OneMonth | ThreeMonths | SixMonths | TwelveMonths {
    /** The `value` the button stores as the selected plan. */
    function Text(): (t: string)
      ensures t in PlanTexts
      ensures ParseInt(t) == Some(Months())
    {
      var t := match this
        case OneMonth => "1"
        case ThreeMonths => "3"
        case SixMonths => "6"
        case TwelveMonths => "12";
      PlanTextMonths(t);
      t
    }

    /** The months the button's label promises. */
    function Months(): nat {
      match this
      case OneMonth => 1
      case ThreeMonths => 3
      case SixMonths => 6
      case TwelveMonths => 12
    }
  }

  const PlanTexts: set<string> := {"1", "3", "6", "12"}

  /** Each plan text reads as its number of months. */
  lemma PlanTextMonths(t: string)
    requires t in PlanTexts
    ensures ParseInt(t).Some? && ParseInt(t).value in {1, 3, 6, 12}
    ensures t == "1" ==> ParseInt(t) == Some(1)
    ensures t == "3" ==> ParseInt(t) == Some(3)
    ensures t == "6" ==> ParseInt(t) == Some(6)
    ensures t == "12" ==> ParseInt(t) == Some(12)
  {
    if t == "12" {
      assert NatToString(12) == NatToString(1) + [DigitChar(2)];
      assert IntToString(12) == t;
      ParseIntOfIntToString(12);
    } else {
      var n := DigitValue(t[0]);
      assert NatToString(n) == t;
      assert IntToString(n) == t;
      ParseIntOfIntToString(n);
    }
  }

  /** The selection the dialog keeps: the plan text and where to extend from. */
  datatype State = State(selectedPlan: string, extendFrom: string)

  /** The state when the dialog opens: one month, from the current end. */
  function Initial(): (s: State)
    ensures s.selectedPlan == OneMonth.Text() && s.extendFrom == CurrentEnd
  {
    State(OneMonth.Text(), CurrentEnd)
  }

  function SelectPlan(s: State, plan: Plan): (r: State)
    ensures r.selectedPlan == plan.Text() && r.extendFrom == s.extendFrom
  {
    s.(selectedPlan := plan.Text())
  }

  function ChooseCurrentEnd(s: State): (r: State)
    ensures r.extendFrom == CurrentEnd && r.selectedPlan == s.selectedPlan
  {
    s.(extendFrom := CurrentEnd)
  }

  function ChooseToday(s: State): (r: State)
    ensures r.extendFrom == FromToday && r.selectedPlan == s.selectedPlan
  {
    s.(extendFrom := FromToday)
  }

  /** The selections the dialog's controls can produce. */
  predicate Reachable(s: State) {
    s.selectedPlan in PlanTexts && (s.extendFrom == CurrentEnd || s.extendFrom == FromToday)
  }

  /** Every control keeps the selection reachable, starting from the
      initial one. */
  lemma ControlsKeepReachable(s: State, plan: Plan)
    ensures Reachable(Initial())
    ensures Reachable(s) ==> Reachable(SelectPlan(s, plan))
    ensures Reachable(s) ==> Reachable(ChooseCurrentEnd(s)) && Reachable(ChooseToday(s))
  {
  }

  /** The date the renewal extends from: the customer's current end date as
      `new Date` reads it, or today. `None` is an invalid date. */
  function BaseDate(customer: Customer, s: State, today: Date): (base: Option<Date>)
    ensures s.extendFrom == CurrentEnd ==> base == ParseIso(customer.endDate)
    ensures s.extendFrom != CurrentEnd ==> base == Some(today)
  {
    if s.extendFrom == CurrentEnd then ParseIso(customer.endDate) else Some(today)
  }

  /** `calculateEndDate()`: the base moved by the plan's months, formatted.
      `None` is the exception `format` throws on an invalid date. */
  function NewEndDate(customer: Customer, s: State, today: Date): (end: Option<string>)
    requires Valid(today)
    ensures end.Some? <==> BaseDate(customer, s, today).Some? && ParseInt(s.selectedPlan).Some?
  {
    match BaseDate(customer, s, today)
    case None => None
    case Some(base) =>
      match ParseInt(s.selectedPlan)
      case None => None
      case Some(months) => Some(FormatIso(AddMonths(base, months)))
  }

  /** What the dialog shows: the current end date and the new one. It fails
      to render, whatever the selection, when the stored end date is not a
      date, because `parseISO` then yields a date `format` rejects. */
  datatype View = View(currentEnd: string, newEnd: string)

  function Render(customer: Customer, s: State, today: Date): (v: Option<View>)
    requires Valid(today)
    ensures v.Some? <==> NewEndDate(customer, s, today).Some? && ParseIso(customer.endDate).Some?
    ensures v.Some? ==> v.value.newEnd == NewEndDate(customer, s, today).value
    ensures v.Some? ==> v.value.currentEnd == FormatIso(ParseIso(customer.endDate).value)
  {
    match NewEndDate(customer, s, today)
    case None => None
    case Some(newEnd) =>
      match ParseIso(customer.endDate)
      case None => None
      case Some(current) => Some(View(FormatIso(current), newEnd))
  }

  /** For a reachable selection the dialog renders exactly when the stored
      end date is a date; it then shows that date as stored (unless its year
      is 0000, which `format` writes as 0001), and a new end date strictly
      after the base it extends. */
  lemma RenderMeaning(customer: Customer, s: State, today: Date)
    requires Valid(today) && Reachable(s)
    ensures Render(customer, s, today).Some? <==> ParseIso(customer.endDate).Some?
    ensures Render(customer, s, today).Some? ==>
              var base := BaseDate(customer, s, today).value;
              var end := AddMonths(base, ParseInt(s.selectedPlan).value);
              && Render(customer, s, today).value.newEnd == FormatIso(end)
              && (ParseIso(customer.endDate).value.year >= 1 ==>
                    Render(customer, s, today).value.currentEnd == customer.endDate)
              && Before(base, end)
  {
    PlanTextMonths(s.selectedPlan);
    var months := ParseInt(s.selectedPlan).value;
    if ParseIso(customer.endDate).Some? {
      var base := BaseDate(customer, s, today).value;
      FormatParseIso(customer.endDate);
      AddMonthsDirection(base, months);
    }
  }

  /** `handleRenew`: only the end date and the update time are written. */
  function RenewWrite(customer: Customer, newEnd: string, updatedAt: string): (w: Write)
    ensures w.Update? && w.id == customer.id
    ensures w.columns.Keys == {"end_date", "updated_at"}
    ensures w.columns["end_date"] == Str(newEnd) && w.columns["updated_at"] == Str(updatedAt)
  {
    Update(customer.id, map["end_date" := Str(newEnd), "updated_at" := Str(updatedAt)])
  }

  /** Renewing twice by the same plan from the current end date moves the
      end date by twice the plan's months, up to the day clamping `addMonths`
      does: the second renewal extends from the date the first one stored. */
  lemma RenewFromCurrentEndTwice(customer: Customer, plan: Plan, today: Date)
    requires Valid(today) && ParseIso(customer.endDate).Some?
    ensures var s := State(plan.Text(), CurrentEnd);
            var once := AddMonths(ParseIso(customer.endDate).value, plan.Months());
            && NewEndDate(customer, s, today) == Some(FormatIso(once))
            && (1 <= once.year < 10000 ==>
                  var twice := AddMonths(once, plan.Months());
                  && NewEndDate(customer.(endDate := FormatIso(once)), s, today) == Some(FormatIso(twice))
                  && MonthIndex(twice) == MonthIndex(ParseIso(customer.endDate).value) + 2 * plan.Months())
  {
    var base := ParseIso(customer.endDate).value;
    var once := AddMonths(base, plan.Months());
    RenewFromCurrentEnd(customer, plan, today, base);
    if 1 <= once.year < 10000 {
      AddMonthsDirection(base, plan.Months());
      ParseFormatIso(once);
      RenewFromCurrentEnd(customer.(endDate := FormatIso(once)), plan, today, once);
    }
  }

  /** One renewal from a current end date that parses. */
  lemma RenewFromCurrentEnd(customer: Customer, plan: Plan, today: Date, base: Date)
    requires Valid(today) && ParseIso(customer.endDate) == Some(base)
    ensures NewEndDate(customer, State(plan.Text(), CurrentEnd), today) == Some(FormatIso(AddMonths(base, plan.Months())))
  {
    assert BaseDate(customer, State(plan.Text(), CurrentEnd), today) == Some(base);
  }
}

=== FILE: seqs.dfy ===
/** `Array.prototype.filter` over sequences, with the facts the list views
    rely on: it keeps order, keeps exactly the matching elements, and two
    complementary filters split a list. */
module Seqs {

  /** `s.filter(p)`. */
  function Filter<T>(s: seq<T>, p: T -> bool): (r: seq<T>)
    ensures |r| <= |s|
    ensures forall x :: x in r ==> x in s && p(x)
    ensures forall x :: x in s && p(x) ==> x in r
  {
    if s == [] then [] else (if p(s[0]) then [s[0]] else []) + Filter(s[1..], p)
  }

  /** Filtering commutes with concatenation, so the relative order of the
      kept elements is the order they had in the input. */
  lemma {:induction false} FilterAppend<T>(a: seq<T>, b: seq<T>, p: T -> bool)
    ensures Filter(a + b, p) == Filter(a, p) + Filter(b, p)
  {
    if a == [] {
      assert a + b == b;
    } else {
      assert (a + b)[0] == a[0];
      assert (a + b)[1..] == a[1..] + b;
      FilterAppend(a[1..], b, p);
    }
  }

  /** A filter comes out empty exactly when no element passes. */
  lemma FilterEmptyIff<T>(s: seq<T>, p: T -> bool)
    ensures Filter(s, p) == [] <==> forall x :: x in s ==> !p(x)
  {
    var r := Filter(s, p);
    if r != [] {
      assert r[0] in r;
    }
  }

  /** Predicates that agree on the elements of `s` filter it alike. */
  lemma {:induction false} FilterCongruent<T>(s: seq<T>, p: T -> bool, q: T -> bool)
    requires forall x :: x in s ==> p(x) == q(x)
    ensures Filter(s, p) == Filter(s, q)
  {
    if s != [] {
      FilterCongruent(s[1..], p, q);
    }
  }

  /** A filter that every element passes keeps the whole list. */
  lemma {:induction false} FilterKeepsAll<T>(s: seq<T>, p: T -> bool)
    requires forall x :: x in s ==> p(x)
    ensures Filter(s, p) == s
  {
    if s != [] {
      FilterKeepsAll(s[1..], p);
    }
  }

  /** Filtering by `p` and then by `q` is filtering by their conjunction. */
  lemma {:induction false} FilterThenFilter<T>(s: seq<T>, p: T -> bool, q: T -> bool, both: T -> bool)
    requires forall x :: x in s ==> both(x) == (p(x) && q(x))
    ensures Filter(Filter(s, p), q) == Filter(s, both)
  {
    if s != [] {
      FilterThenFilter(s[1..], p, q, both);
      var head := if p(s[0]) then [s[0]] else [];
      FilterAppend(head, Filter(s[1..], p), q);
    }
  }

  /** Two complementary filters split the list: every element lands in
      exactly one of them, duplicates included. */
  lemma {:induction false} FilterPartition<T>(s: seq<T>, p: T -> bool, q: T -> bool)
    requires forall x :: x in s ==> q(x) == !p(x)
    ensures multiset(Filter(s, p)) + multiset(Filter(s, q)) == multiset(s)
    ensures |Filter(s, p)| + |Filter(s, q)| == |s|
  {
    if s != [] {
      FilterPartition(s[1..], p, q);
      assert s == [s[0]] + s[1..];
    }
  }
}

=== FILE: subscription.dfy ===
/** Subscription types and the end-date rule the two add-customer forms share:
    the duration counts months, quarters or years by type, a duration that is
    not a positive number counts as nothing, and an unusable start date gives
    no end date at all. */
module Subscription {
  import opened Options
  import opened Calendar

  const Monthly: string := "شهري"
  const Quarterly: string := "ربع سنوي"
  const Yearly: string := "سنوي"

  /** Months per unit of duration: the `switch` over the type in the add
      forms and the `if`/`else` chain in the older renew dialog. Any text
      other than the two named types counts as monthly. */
  function Multiplier(subscriptionType: string): (k: nat)
    ensures k == 12 <==> subscriptionType == Yearly
    ensures k == 3 <==> subscriptionType == Quarterly
    ensures k == 1 <==> subscriptionType != Yearly && subscriptionType != Quarterly
  {
    if subscriptionType == Yearly then 12
    else if subscriptionType == Quarterly then 3
    else 1
  }

  /** The months the add forms add: a duration that is zero or negative is
      replaced by zero before the type multiplies it. */
  function ClampedMonths(duration: int, subscriptionType: string): (months: nat)
    ensures months == 0 <==> duration <= 0
    ensures duration > 0 ==> months == duration * Multiplier(subscriptionType)
    ensures duration > 0 ==> months >= duration
  {
    if duration <= 0 then 0 else duration * Multiplier(subscriptionType)
  }

  /** `calculateEndDate` of the add forms, as the `yyyy-MM-dd` text it stores
      (`''` when there is none). The end date is empty exactly when the start
      date does not parse; otherwise it is the start date moved forward by
      the clamped number of months, so it is never before the start, and it
      is the start itself exactly when the duration is not positive. In that
      case the start text is kept as typed. */
  function ClampedEndDate(startDate: string, duration: int, subscriptionType: string): (endDate: string)
    ensures endDate == [] <==> ParseIso(startDate).None?
    ensures ParseIso(startDate).Some? ==>
              var start := ParseIso(startDate).value;
              var end := AddMonths(start, ClampedMonths(duration, subscriptionType));
              && !Before(end, start)
              && (end == start <==> duration <= 0)
              && (duration > 0 ==> endDate == FormatIso(end))
              && (duration <= 0 ==> endDate == startDate)
              && (start.year >= 1 ==> endDate == FormatIso(end))
  {
    if startDate == [] then []
    else
      match ParseIso(startDate)
      case None => []
      case Some(start) =>
        var months := ClampedMonths(duration, subscriptionType);
        FormatParseIso(startDate);
        AddMonthsZero(start);
        AddMonthsDirection(start, months);
        if months > 0 then FormatIso(AddMonths(start, months)) else startDate
  }
}

=== FILE: text.dfy ===
/** The JavaScript string operations the dashboard relies on, restated over
    `seq<char>`: `trim`, ASCII `toLowerCase`/`toUpperCase`, `includes`,
    `split(c)[0]`, the leading-zero strip `replace(/^0+/, '')`, decimal
    `parseInt` and integer `toString`. */
module Text {
  import opened Options

  /** The WhiteSpace and LineTerminator code points of ECMAScript: the set
      that `trim`, `parseInt` and the regular-expression class `\s` skip. */
  predicate IsWhitespace(c: char) {
    || ('\t' <= c <= '\r') || c == ' '
    || ('\U{00A0}' <= c && OtherWhitespace(c))
  }

  /** The whitespace code points beyond ASCII. */
  predicate OtherWhitespace(c: char) {
    || c == '\U{00A0}' || c == '\U{1680}'
    || ('\U{2000}' <= c <= '\U{200A}')
    || c == '\U{2028}' || c == '\U{2029}' || c == '\U{202F}' || c == '\U{205F}'
    || c == '\U{3000}' || c == '\U{FEFF}'
  }

  predicate IsPrefix(p: string, s: string) {
    |p| <= |s| && s[..|p|] == p
  }

  /** The number of whitespace characters `s` starts with. */
  function LeadingWhitespace(s: string): (n: nat)
    ensures n <= |s|
    ensures forall i :: 0 <= i < n ==> IsWhitespace(s[i])
    ensures n < |s| ==> !IsWhitespace(s[n])
  {
    if s != [] && IsWhitespace(s[0]) then 1 + LeadingWhitespace(s[1..]) else 0
  }

  /** The number of whitespace characters `s` ends with. */
  function TrailingWhitespace(s: string): (n: nat)
    ensures n <= |s|
    ensures forall i :: |s| - n <= i < |s| ==> IsWhitespace(s[i])
    ensures n < |s| ==> !IsWhitespace(s[|s| - n - 1])
  {
    if s != [] && IsWhitespace(s[|s| - 1]) then 1 + TrailingWhitespace(s[..|s| - 1]) else 0
  }

  /** `s.trimStart()`: drops the leading whitespace and nothing else. */
  function TrimStart(s: string): (r: string)
    ensures |r| <= |s| && r == s[|s| - |r|..]
    ensures forall i :: 0 <= i < |s| - |r| ==> IsWhitespace(s[i])
    ensures r != [] ==> !IsWhitespace(r[0])
  {
    s[LeadingWhitespace(s)..]
  }

  /** `s.trimEnd()`: drops the trailing whitespace and nothing else. */
  function TrimEnd(s: string): (r: string)
    ensures IsPrefix(r, s)
    ensures forall i :: |r| <= i < |s| ==> IsWhitespace(s[i])
    ensures r != [] ==> !IsWhitespace(r[|r| - 1])
  {
    s[..|s| - TrailingWhitespace(s)]
  }

  /** `s.trim()`: the part of `s` between its leading and its trailing
      whitespace, which itself neither starts nor ends with whitespace. */
  function Trim(s: string): (r: string)
    ensures var k := LeadingWhitespace(s);
            && k + |r| <= |s| && r == s[k..k + |r|]
            && (forall i :: 0 <= i < k ==> IsWhitespace(s[i]))
            && (forall i :: k + |r| <= i < |s| ==> IsWhitespace(s[i]))
    ensures r != [] ==> !IsWhitespace(r[0]) && !IsWhitespace(r[|r| - 1])
  {
    var k := LeadingWhitespace(s);
    var n := TrailingWhitespace(s[k..]);
    assert TrimStart(s) == s[k..];
    assert TrimEnd(s[k..]) == s[k..|s| - n];
    TrimEnd(TrimStart(s))
  }

  /** A trimmed string is empty exactly when every character was whitespace;
      this is what `!s.trim()` tests. */
  lemma TrimEmptyIff(s: string)
    ensures Trim(s) == [] <==> forall i :: 0 <= i < |s| ==> IsWhitespace(s[i])
  {
    var t := TrimStart(s);
    if t != [] {
      assert !IsWhitespace(t[0]);
      assert !IsWhitespace(s[|s| - |t|]);
    } else {
      assert Trim(s) == [];
    }
  }

  function LowerChar(c: char): (r: char)
    ensures 'A' <= c <= 'Z' ==> 'a' <= r <= 'z'
    ensures !('A' <= c <= 'Z') ==> r == c
  {
    if 'A' <= c <= 'Z' then (c as int + 32) as char else c
  }

  function UpperChar(c: char): (r: char)
    ensures 'a' <= c <= 'z' ==> 'A' <= r <= 'Z'
    ensures !('a' <= c <= 'z') ==> r == c
  {
    if 'a' <= c <= 'z' then (c as int - 32) as char else c
  }

  /** `s.toLowerCase()`, restricted to the ASCII letters. */
  function ToLower(s: string): (r: string)
    ensures |r| == |s|
    ensures forall i :: 0 <= i < |s| ==> r[i] == LowerChar(s[i])
  {
    seq(|s|, i requires 0 <= i < |s| => LowerChar(s[i]))
  }

  /** `s.toUpperCase()`, restricted to the ASCII letters. */
  function ToUpper(s: string): (r: string)
    ensures |r| == |s|
    ensures forall i :: 0 <= i < |s| ==> r[i] == UpperChar(s[i])
  {
    seq(|s|, i requires 0 <= i < |s| => UpperChar(s[i]))
  }

  /** Upper-casing one or two characters. */
  lemma ToUpperShort(a: char, b: char)
    ensures ToUpper([a]) == [UpperChar(a)]
    ensures ToUpper([a, b]) == [UpperChar(a), UpperChar(b)]
  {
    assert ToUpper([a])[0] == UpperChar(a);
    assert ToUpper([a, b])[1] == UpperChar(b);
  }

  /** Lower-casing forgets whatever case the text was in before. */
  lemma ToLowerForgetsCase(s: string)
    ensures ToLower(ToUpper(s)) == ToLower(s)
    ensures ToLower(ToLower(s)) == ToLower(s)
  {
    assert forall i :: 0 <= i < |s| ==> LowerChar(UpperChar(s[i])) == LowerChar(s[i]);
  }

  /** `sub` occurs in `s` starting at index `i`. */
  predicate OccursAt(s: string, sub: string, i: nat) {
    i + |sub| <= |s| && s[i..i + |sub|] == sub
  }

  /** `s.includes(sub)`, computed by trying every suffix. */
  predicate Contains(s: string, sub: string) {
    IsPrefix(sub, s) || (s != [] && Contains(s[1..], sub))
  }

  /** The search agrees with the definition of an occurrence. */
  lemma {:induction false} ContainsIff(s: string, sub: string)
    ensures Contains(s, sub) <==> exists i: nat :: OccursAt(s, sub, i)
  {
    if IsPrefix(sub, s) {
      assert OccursAt(s, sub, 0);
    } else if s == [] {
      assert forall i: nat :: !OccursAt(s, sub, i);
    } else {
      ContainsIff(s[1..], sub);
      if Contains(s[1..], sub) {
        var i: nat :| OccursAt(s[1..], sub, i);
        assert s[i + 1..i + 1 + |sub|] == s[1..][i..i + |sub|];
        assert OccursAt(s, sub, i + 1);
      }
      if exists i: nat :: OccursAt(s, sub, i) {
        var i: nat :| OccursAt(s, sub, i);
        assert i != 0;
        assert s[1..][i - 1..i - 1 + |sub|] == s[i..i + |sub|];
        assert OccursAt(s[1..], sub, i - 1);
      }
    }
  }

  /** Every string includes the empty string, so an empty search keeps
      everything. */
  lemma ContainsEmpty(s: string)
    ensures Contains(s, [])
  {
    assert IsPrefix([], s);
  }

  /** `s.toLowerCase().includes(q.toLowerCase())`. */
  predicate ContainsIgnoringCase(s: string, q: string) {
    Contains(ToLower(s), ToLower(q))
  }

  /** The case-insensitive match does not depend on the case of either side. */
  lemma ContainsIgnoringCaseIsCaseBlind(s: string, q: string)
    ensures ContainsIgnoringCase(ToUpper(s), q) == ContainsIgnoringCase(s, q)
    ensures ContainsIgnoringCase(s, ToUpper(q)) == ContainsIgnoringCase(s, q)
    ensures ContainsIgnoringCase(ToLower(s), ToLower(q)) == ContainsIgnoringCase(s, q)
  {
    ToLowerForgetsCase(s);
    ToLowerForgetsCase(q);
  }

  /** `s.split(c)[0]`: the text before the first `c`, or all of `s`. */
  function BeforeFirst(s: string, c: char): (r: string)
    ensures IsPrefix(r, s)
    ensures c !in r
    ensures |r| < |s| ==> s[|r|] == c
  {
    if s == [] then [] else if s[0] == c then [] else [s[0]] + BeforeFirst(s[1..], c)
  }

  /** The text before the first `c` ends where `c` first occurs. */
  lemma {:induction false} BeforeFirstAt(s: string, c: char, i: nat)
    requires i < |s| && s[i] == c
    requires forall j :: 0 <= j < i ==> s[j] != c
    ensures BeforeFirst(s, c) == s[..i]
  {
    if i > 0 {
      BeforeFirstAt(s[1..], c, i - 1);
      assert s[..i] == [s[0]] + s[1..][..i - 1];
    }
  }

  /** `s.split(c)`: the pieces between the occurrences of `c`, empty ones
      included. */
  function Split(s: string, c: char): (parts: seq<string>)
    ensures |parts| >= 1 && parts[0] == BeforeFirst(s, c)
    ensures |parts| > 1 <==> c in s
    ensures forall i :: 0 <= i < |parts| ==> c !in parts[i]
    ensures forall i, x :: 0 <= i < |parts| && x in parts[i] ==> x in s
    decreases |s|
  {
    var head := BeforeFirst(s, c);
    if |head| == |s| then
      assert head == s;
      [s]
    else
      assert s[|head|] == c;
      var rest := Split(s[|head| + 1..], c);
      assert forall i, x :: 1 <= i < |rest| + 1 && x in ([head] + rest)[i] ==> x in s[|head| + 1..];
      [head] + rest
  }

  /** `parts.join(c)`. */
  function Join(parts: seq<string>, c: char): string {
    if parts == [] then []
    else if |parts| == 1 then parts[0]
    else parts[0] + [c] + Join(parts[1..], c)
  }

  /** Joining the pieces with the separator gives back the text. */
  lemma {:induction false} JoinSplit(s: string, c: char)
    ensures Join(Split(s, c), c) == s
    decreases |s|
  {
    var head := BeforeFirst(s, c);
    if |head| == |s| {
      assert Split(s, c) == [s];
    } else {
      var tail := s[|head| + 1..];
      var rest := Split(tail, c);
      assert Split(s, c) == [head] + rest;
      assert ([head] + rest)[1..] == rest;
      JoinSplit(tail, c);
      assert s == head + [c] + tail;
    }
  }

  /** Splitting two texts joined by the separator gives the pieces of the
      first followed by those of the second: the pieces come in text order. */
  lemma {:induction false} SplitAppend(a: string, c: char, b: string)
    ensures Split(a + [c] + b, c) == Split(a, c) + Split(b, c)
    decreases |a|
  {
    var head := BeforeFirst(a, c);
    if |head| < |a| {
      SplitAppend(a[|head| + 1..], c, b);
    }
    SplitAppendStep(a, c, b);
  }

  /** The step of `SplitAppend`: a text without the separator is one piece
      before the joined rest, and one with it contributes its first piece and
      then the pieces of what follows. */
  lemma SplitAppendStep(a: string, c: char, b: string)
    requires var head := BeforeFirst(a, c);
             |head| < |a| ==> Split(a[|head| + 1..] + [c] + b, c) == Split(a[|head| + 1..], c) + Split(b, c)
    ensures Split(a + [c] + b, c) == Split(a, c) + Split(b, c)
  {
    if |BeforeFirst(a, c)| == |a| {
      SplitAppendWhole(a, c, b);
    } else {
      SplitAppendPast(a, c, b);
    }
  }

  lemma SplitAppendWhole(a: string, c: char, b: string)
    requires |BeforeFirst(a, c)| == |a|
    ensures Split(a + [c] + b, c) == Split(a, c) + Split(b, c)
  {
    var s := a + [c] + b;
    assert BeforeFirst(a, c) == a;
    BeforeFirstOfLonger(a, c, b);
    AfterSeparator(a, c, b);
    assert Split(s, c) == [a] + Split(b, c) by {
      SplitStep(s, c);
    }
    assert Split(a, c) == [a] by {
      SplitStep(a, c);
    }
  }

  lemma SplitAppendPast(a: string, c: char, b: string)
    requires |BeforeFirst(a, c)| < |a|
    requires var head := BeforeFirst(a, c);
             Split(a[|head| + 1..] + [c] + b, c) == Split(a[|head| + 1..], c) + Split(b, c)
    ensures Split(a + [c] + b, c) == Split(a, c) + Split(b, c)
  {
    var s := a + [c] + b;
    var head := BeforeFirst(a, c);
    var i := |head|;
    BeforeFirstOfLonger(a, c, b);
    var rest := a[i + 1..] + [c] + b;
    DropFromJoin(a, c, b, i + 1);
    assert s[i + 1..] == rest;
    assert Split(s, c) == [head] + Split(rest, c) by {
      SplitStep(s, c);
    }
    assert Split(a, c) == [head] + Split(a[i + 1..], c) by {
      SplitStep(a, c);
    }
    var tail, second := Split(a[i + 1..], c), Split(b, c);
    assert Split(rest, c) == tail + second;
    SplitAppendAfter(head, Split(a, c), Split(s, c), tail, second);
  }

  /** Dropping a prefix of the first part of a concatenation. */
  lemma AfterSeparator(a: string, c: char, b: string)
    ensures (a + [c] + b)[|a| + 1..] == b
  {
  }

  lemma DropFromJoin(a: string, c: char, b: string, k: nat)
    requires k <= |a|
    ensures (a + [c] + b)[k..] == a[k..] + [c] + b
  {
  }

  /** The sequence arithmetic of the step, away from `Split`'s contract. */
  lemma SplitAppendAfter(head: string, whole: seq<string>, joined: seq<string>,
                         tail: seq<string>, second: seq<string>)
    requires whole == [head] + tail && joined == [head] + (tail + second)
    ensures joined == whole + second
  {
  }

  /** One step of `Split`: the text before the first separator, then the
      pieces of what follows it. */
  lemma SplitStep(s: string, c: char)
    ensures |BeforeFirst(s, c)| == |s| ==> Split(s, c) == [s]
    ensures |BeforeFirst(s, c)| < |s| ==> Split(s, c) == [BeforeFirst(s, c)] + Split(s[|BeforeFirst(s, c)| + 1..], c)
  {
  }

  /** Appending a separator and more text does not move the first
      separator of a text. */
  lemma BeforeFirstOfLonger(a: string, c: char, b: string)
    ensures BeforeFirst(a + [c] + b, c) == BeforeFirst(a, c)
  {
    var head := BeforeFirst(a, c);
    var i := |head|;
    var s := a + [c] + b;
    assert s[i] == c;
    forall j | 0 <= j < i ensures s[j] != c {
      assert s[j] == a[j] == head[j];
    }
    BeforeFirstAt(s, c, i);
    assert s[..i] == head;
  }

  /** `s.replace(/^0+/, '')`: removes the run of leading '0's. */
  function StripLeadingZeros(s: string): (r: string)
    ensures |r| <= |s| && r == s[|s| - |r|..]
    ensures forall i :: 0 <= i < |s| - |r| ==> s[i] == '0'
    ensures r != [] ==> r[0] != '0'
  {
    if s != [] && s[0] == '0' then StripLeadingZeros(s[1..]) else s
  }

  predicate IsDigit(c: char) {
    '0' <= c <= '9'
  }

  predicate AllDigits(s: string) {
    forall i :: 0 <= i < |s| ==> IsDigit(s[i])
  }

  function DigitValue(c: char): (v: nat)
    requires IsDigit(c)
    ensures v < 10
  {
    c as int - '0' as int
  }

  function DigitChar(n: nat): (c: char)
    requires n < 10
    ensures IsDigit(c) && DigitValue(c) == n
  {
    ('0' as int + n) as char
  }

  /** The longest run of decimal digits at the head of `s`. */
  function DigitPrefix(s: string): (r: string)
    ensures IsPrefix(r, s) && AllDigits(r)
    ensures |r| < |s| ==> !IsDigit(s[|r|])
  {
    if s != [] && IsDigit(s[0]) then [s[0]] + DigitPrefix(s[1..]) else []
  }

  /** The number a run of decimal digits denotes. */
  function DigitsValue(s: string): nat
    requires AllDigits(s)
  {
    if s == [] then 0 else DigitsValue(s[..|s| - 1]) * 10 + DigitValue(s[|s| - 1])
  }

  /** `n.toString()` for a non-negative integer: decimal digits, no padding. */
  function NatToString(n: nat): (r: string)
    ensures r != [] && AllDigits(r)
    ensures DigitsValue(r) == n
  {
    if n < 10 then [DigitChar(n)]
    else
      var r := NatToString(n / 10) + [DigitChar(n % 10)];
      assert r[..|r| - 1] == NatToString(n / 10);
      r
  }

  /** `n.toString()` for any integer. */
  function IntToString(n: int): (r: string)
    ensures r != []
    ensures n >= 0 ==> AllDigits(r) && DigitsValue(r) == n
    ensures n < 0 ==> r[0] == '-' && AllDigits(r[1..]) && DigitsValue(r[1..]) == -n
  {
    if n < 0 then "-" + NatToString(-n) else NatToString(n)
  }

  /** JavaScript `parseInt(s)` on decimal text: skips leading whitespace,
      reads an optional sign and then the longest run of digits; `None` is
      the `NaN` it yields when no digit follows. */
  function ParseInt(s: string): (r: Option<int>)
    ensures r.None? <==> DigitPrefix(Unsigned(TrimStart(s))) == []
  {
    var t := TrimStart(s);
    var digits := DigitPrefix(Unsigned(t));
    var magnitude: int := DigitsValue(digits);
    if digits == [] then None
    else if t != [] && t[0] == '-' then Some(-magnitude)
    else Some(magnitude)
  }

  /** `t` without its leading sign, if it has one. */
  function Unsigned(t: string): string {
    if t != [] && (t[0] == '-' || t[0] == '+') then t[1..] else t
  }

  /** Text that starts with a digit parses to the number its leading digits
      denote; whatever follows them is ignored. */
  lemma ParseIntOfLeadingDigits(s: string)
    requires s != [] && IsDigit(s[0])
    ensures ParseInt(s) == Some(DigitsValue(DigitPrefix(s)))
  {
    assert !IsWhitespace(s[0]);
    assert TrimStart(s) == s;
    assert Unsigned(s) == s;
  }

  /** A non-empty run of digits parses to the number it denotes. */
  lemma ParseIntOfDigits(s: string)
    requires s != [] && AllDigits(s)
    ensures ParseInt(s) == Some(DigitsValue(s))
  {
    assert !IsWhitespace(s[0]) by { assert IsDigit(s[0]); }
    assert TrimStart(s) == s;
    assert Unsigned(s) == s;
    DigitPrefixOfDigits(s);
  }

  lemma {:induction false} DigitPrefixOfDigits(s: string)
    requires AllDigits(s)
    ensures DigitPrefix(s) == s
  {
    if s != [] {
      DigitPrefixOfDigits(s[1..]);
    }
  }

  /** Printing an integer and parsing it back returns the integer. */
  lemma ParseIntOfIntToString(n: int)
    ensures ParseInt(IntToString(n)) == Some(n)
  {
    var m: nat := if n < 0 then -n else n;
    var digits := NatToString(m);
    DigitPrefixOfDigits(digits);
    var s := IntToString(n);
    if n < 0 {
      assert s == "-" + digits;
      assert !IsWhitespace(s[0]);
      assert TrimStart(s) == s;
      assert Unsigned(s) == digits;
    } else {
      ParseIntOfDigits(digits);
    }
  }
}

=== FILE: whatsapp_preview.dfy ===
/** The WhatsApp message preview on a customer card
    (`components/customers/WhatsAppPreview.jsx`): hidden when there is no
    real message, otherwise the message with a time stamp that reads as a
    clock time today, `الأمس` yesterday, and a date before that. */
module WhatsAppPreview {
  import opened Options
  import opened Text
  import opened Calendar

  const NoPreviousMessages: string := "لا توجد رسائل سابقة"
  const Yesterday: string := "الأمس"

  /** The `timestamp` prop: absent or empty, not a date, or an instant. */
  datatype Timestamp = Missing | NotADate | At(time: Instant)

  /** `formatMessageTime`. `None` is the exception `format` throws on a
      timestamp that is not a date. */
  function MessageTime(stamp: Timestamp, now: Instant): (text: Option<string>)
    requires ValidInstant(now)
    requires stamp.At? ==> ValidInstant(stamp.time)
    ensures stamp.Missing? ==> text == Some([])
    ensures stamp.NotADate? ==> text.None?
    ensures stamp.At? && IsToday(stamp.time, now) ==>
              text.Some? && |text.value| == 5 && text.value[2] == ':'
    ensures stamp.At? && IsYesterday(stamp.time, now) ==> text == Some(Yesterday)
    ensures stamp.At? && !IsToday(stamp.time, now) && !IsYesterday(stamp.time, now) ==>
              text == Some(FormatDayMonthYear(stamp.time.date))
  {
    match stamp
    case Missing => Some([])
    case NotADate => None
    case At(t) =>
      if IsToday(t, now) then Some(FormatClock(t))
      else if IsYesterday(t, now) then Some(Yesterday)
      else Some(FormatDayMonthYear(t.date))
  }

  /** The clock text reads back as the hour and minute of the stamp. */
  lemma ClockReadsBack(t: Instant)
    requires ValidInstant(t)
    ensures var text := FormatClock(t);
            && AllDigits(text[..2]) && AllDigits(text[3..])
            && DigitsValue(text[..2]) * 3600000 + DigitsValue(text[3..]) * 60000 <= t.msOfDay
            && t.msOfDay < DigitsValue(text[..2]) * 3600000 + DigitsValue(text[3..]) * 60000 + 60000
  {
    var hour := t.msOfDay / 3600000;
    var minute := t.msOfDay / 60000 % 60;
    var text := FormatClock(t);
    assert text[..2] == Pad2(hour);
    assert text[3..] == Pad2(minute);
  }

  /** The three texts of a valid stamp are told apart: a clock time has a
      `:` in it, the date has `/`, and yesterday is a word. */
  lemma StampKindsDiffer(t: Instant, now: Instant)
    requires ValidInstant(now) && ValidInstant(t)
    ensures IsToday(t, now) ==> MessageTime(At(t), now) != Some(Yesterday)
    ensures !IsToday(t, now) && !IsYesterday(t, now) && 0 <= t.date.year < 10000 ==>
              var text := MessageTime(At(t), now).value;
              |text| == 10 && text[2] == '/' && text[5] == '/'
  {
  }

  /** What the component renders. */
  datatype Preview = Hidden | Shown(time: string, message: string) | RenderFails

  /** The preview is hidden for a falsy message or the placeholder text;
      otherwise it shows the message with its time, or fails when the time
      cannot be formatted. */
  function Render(message: Option<string>, stamp: Timestamp, now: Instant): (p: Preview)
    requires ValidInstant(now)
    requires stamp.At? ==> ValidInstant(stamp.time)
    ensures p.Hidden? <==> message.None? || message.value == [] || message.value == NoPreviousMessages
    ensures p.Shown? ==> p.message == message.value && Some(p.time) == MessageTime(stamp, now)
    ensures p.RenderFails? <==> !p.Hidden? && stamp.NotADate?
  {
    if message.None? || message.value == [] || message.value == NoPreviousMessages then Hidden
    else match MessageTime(stamp, now)
      case None => RenderFails
      case Some(time) => Shown(time, message.value)
  }
}
